=== FILE: README.md ===
# Standups: a Dafny model of the app's controllers

The Standups app keeps a list of recurring meetings ("standups"). Each standup
has a title, a length, a colour theme, a list of attendees and a history of
past meetings with their transcripts. Four controllers drive it:

- the list screen (`StandupsListModel`), which loads the saved standups, adds
  new ones through an editing sheet, and opens a detail screen;
- the detail screen (`StandupDetailModel`), which edits, records, deletes past
  meetings, or deletes the standup after a confirmation alert;
- the edit form (`EditStandupModel`), which works on a scratch copy and manages
  input focus;
- the meeting recorder (`RecordMeetingModel`), together with the values its
  timer and footer views derive from it.

The model is written as pure state transitions over immutable values, with
one module per Swift file:

- `Models` covers the entities, the themes and the `Duration` arithmetic.
- `EditStandup`, `StandupDetail`, `StandupsList` and `RecordMeeting` cover the
  four controllers.
- Three helper modules stand for library behaviour the controllers rely on:
  - `Offsets`: `IndexSet`, `remove(atOffsets:)`, `removeAll(where:)`.
  - `Decimal`: integer interpolation into text.
  - `Optional`: Swift's optional.

A presented child controller is a value inside its parent's `destination` sum
type, so at most one child is presented, by construction. What a parent's
`bind()` subscribes to is applied in the same step as the child's action:

- the list writes the detail's standup back with `standups[id:] = standup`;
- the list removes the standup when the detail confirms deletion;
- the detail inserts a meeting when the recorder finishes.

Fresh `UUID()`s and the current `Date()` are parameters of the steps. The
list screen, the detail screen and the edit form each have an `Enabled`
predicate for the actions their view can send (for example, a tapped row
exists and a new id is fresh) and an `Inv` predicate that every `Step`
keeps. The recorder has neither: its two button handlers are empty, so its
`Step` changes nothing. SwiftUI's own dismissals (navigating back, swiping a
sheet down, the alert's cancel button) set the destination to nil; the model
reaches those states through the always-enabled cancel and dismiss actions.

Three behaviours of the code are worth noting:

- `Duration` is Swift's attosecond-precise `Duration`, not whole seconds, so
  `durationPerAttendee` truncates attoseconds.
- `nextButtonTapped` and `endMeetingButtonTapped` have empty bodies in this
  version, so they change nothing.
- `RecordMeetingModel` in this version has no timer loop and no
  `onMeetingFinished` hook, although the detail screen's `bind()` and the
  recorder's test refer to one. The recorder's finishing is therefore an
  input of the detail screen (`RecorderFinished`).

## Model

| member | source | states |
|---|---|---|
| Offsets.RemoveAt | Standups/EditStandup.swift:24-26 | `remove(atOffsets:)` leaves as many elements as there are unmarked positions |
| Offsets.RemoveAtKeeps | Standups/StandupDetail.swift:71-73 | an unmarked element survives, moved down by the number of marked positions before it |
| Offsets.RemoveAtSource | Standups/StandupDetail.swift:71-73 | every element left over comes from an unmarked position, in order |
| Offsets.RemoveAtKeepsAll | Standups/StandupDetail.swift:71-73 | every unmarked element survives at its shifted position |
| Offsets.RemoveAtSubset | Standups/StandupDetail.swift:71-73 | removal only removes: every survivor was in the original collection |
| Offsets.DeletedBeforeIsCardinality | Standups/EditStandup.swift:24-26 | the count of removed positions below `n` is the size of the offset set below `n` |
| Offsets.RemoveAtLength | Standups/EditStandup.swift:24-26 | with in-range offsets, exactly one element per offset is removed |
| Offsets.RemoveAtEmpty | Standups/EditStandup.swift:27 | the collection becomes empty exactly when every position is removed |
| Offsets.RemoveAtSingle | Standups/StandupDetail.swift:72 | removing one offset is the familiar slice-and-join |
| Offsets.NothingMarked | Standups/StandupDetail.swift:72 | removing no position changes nothing |
| Offsets.RemoveAtPairwise | Standups/Models.swift:7-9 | removal keeps every pairwise property, hence unique ids in an identified array |
| Offsets.Matching | Standups/StandupsList.swift:128-130 | the positions that `removeAll(where:)` removes are exactly those whose element matches |
| Offsets.RemoveAll | Standups/StandupsList.swift:128-130 | `removeAll(where:)` removes exactly one element per match and leaves no element that matches |
| Offsets.RemoveAllKeeps | Standups/StandupsList.swift:128-130 | `removeAll(where:)` keeps every non-matching element, in order |
| Offsets.First | Standups/EditStandup.swift:32 | `indices.first` of a non-empty set is its least member |
| Decimal.Digits | Standups/RecordMeeting.swift:247-250 | an interpolated natural number is a non-empty run of digits without a leading zero |
| Decimal.Describe | Standups/RecordMeeting.swift:247-250 | an interpolated `Int` starts with a minus sign exactly when it is negative, followed by the canonical digits of its magnitude |
| Decimal.DigitsValue | Standups/RecordMeeting.swift:247-250 | the digits read back as the number |
| Decimal.DescribeRoundTrip | Standups/RecordMeeting.swift:247-250 | every interpolated `Int` parses back to itself |
| Models.AddingTimeInterval | Standups/Models.swift:102 | `addingTimeInterval` moves a date by exactly the given seconds |
| Models.Seconds | Standups/Models.swift:8 | `.seconds(n)` is exactly `n` seconds: it reads back as `n` whole seconds and leaves no fraction of a second over |
| Models.Minus | Standups/RecordMeeting.swift:7-9 | `Duration` subtraction is undone by adding the subtrahend back |
| Models.Plus | Standups/RecordMeeting.swift:103-106 | `Duration` addition is undone by subtracting the second operand |
| Models.WholeSeconds | Standups/EditStandup.swift:116 | `components.seconds` is the largest whole number of seconds within the duration, truncated toward zero for negative durations |
| Models.DividedBy | Standups/Models.swift:13-15 | `Duration / Int` truncates toward zero: the quotient times the divisor is within one divisor of the dividend, on the dividend's side |
| Models.FromRawValue | Standups/Models.swift:34-58 | `Theme(rawValue:)` finds the case stored under a string, and finds none exactly when no case is |
| Models.RawValue | Standups/Models.swift:42-57 | every raw value is one non-empty lower-case word |
| Models.RawValueRoundTrip | Standups/Models.swift:34-58 | decoding a theme's raw value gives back that theme |
| Models.RawValueInjective | Standups/Models.swift:34-58 | no two themes share a raw value |
| Models.AllCasesComplete | Standups/Models.swift:34-58 | `allCases` lists all sixteen themes, each once |
| Models.AccentColor | Standups/Models.swift:61-80 | the themes stored as indigo, magenta, navy, oxblood and purple take a white accent, every other theme a black one |
| Models.AccentColorsPartition | Standups/Models.swift:61-80 | every theme has exactly one of the two accent colours |
| Models.AccentColorCounts | Standups/Models.swift:61-80 | five themes take a white accent and eleven a black one |
| Models.Capitalized | Standups/Models.swift:84 | capitalizing keeps the length of the text |
| Models.CapitalizedLowerWord | Standups/Models.swift:84 | capitalizing a lower-case word upper-cases only its first letter |
| Models.Name | Standups/Models.swift:84 | a theme's display name is its raw value with the first letter in upper case |
| Models.BubblegumName | Standups/Models.swift:84 | the default theme is displayed as "Bubblegum" |
| Models.RemoveAttendeesUnique | Standups/EditStandup.swift:24-26 | removing attendees by offset keeps attendee ids unique |
| Models.RemoveMeetingsUnique | Standups/StandupDetail.swift:71-73 | removing meetings by offset keeps meeting ids unique |
| Models.NewStandup | Standups/Models.swift:5-11 | a new standup has no attendees or meetings, five minutes, the bubblegum theme and an empty title |
| Models.DurationPerAttendee | Standups/Models.swift:13-15 | the share is the quotient truncated toward zero: for a non-negative length, the share times the attendee count does not exceed the length and one attosecond more per attendee would; for a negative length, the mirror image |
| Models.DurationPerAttendeeExact | Standups/Models.swift:13-15 | a whole number of seconds that the attendee count divides is shared out exactly |
| Models.Mock | Standups/Models.swift:87-120 | the mock standup is titled "Design", lasts sixty seconds, uses the orange theme, and has six attendees with distinct ids and one meeting dated a week before now |
| Models.MockDurationPerAttendee | Standups/Models.swift:98 | the mock's one-minute length gives each of its six attendees ten seconds |
| EditStandup.Init | Standups/EditStandup.swift:9-21 | the editor keeps the standup as given, except that a standup with no attendees gets one blank attendee; the focus is the one passed in |
| EditStandup.AddAttendeeButtonTapped | Standups/EditStandup.swift:35-41 | one blank attendee with a fresh id joins at the end, the others stay, focus moves to the new attendee, and nothing else changes |
| EditStandup.Remaining | Standups/EditStandup.swift:24-31 | at least one attendee is left after a deletion |
| EditStandup.DeleteAttendeesAsWritten | Standups/EditStandup.swift:23-33 | where it does not trap, the attendees left are the survivors, or one blank placeholder |
| EditStandup.DeleteAttendees | Standups/EditStandup.swift:23-33 | the survivors are left in order, or one placeholder when none survive; the count is right; nothing else changes; focus lands on an attendee that exists, or stays put for an empty selection |
| EditStandup.FocusMovesToNextSurvivor | Standups/EditStandup.swift:32 | after deleting, focus moves to the nearest surviving attendee below the first deleted row |
| EditStandup.FocusClampsToLast | Standups/EditStandup.swift:32 | with no survivor below the first deleted row, focus moves to the attendee just above it, now the last one |
| EditStandup.FocusOnPlaceholder | Standups/EditStandup.swift:27-32 | deleting every attendee moves focus to the placeholder |
| EditStandup.AsWrittenTrapsIff | Standups/EditStandup.swift:32 | the code as written traps exactly when the selection is empty, or when survivors exist but none below the first deleted row |
| EditStandup.AsWrittenOverrunsSurvivors | Standups/EditStandup.swift:32 | when attendees survive but none below the first deleted row, the code as written looks up a position past the end |
| EditStandup.AsWrittenFindsSurvivor | Standups/EditStandup.swift:32 | when an attendee below the first deleted row survives, the code as written finds an attendee to focus |
| EditStandup.AsWrittenAgrees | Standups/EditStandup.swift:23-33 | wherever the code as written does not trap, the corrected version does the same |
| EditStandup.DeleteLastOfTwoTraps | Standups/EditStandup.swift:32 | deleting the second of two attendees traps in the code as written |
| EditStandup.SliderMinutes | Standups/EditStandup.swift:114-116 | the slider shows a duration's whole seconds in whole minutes, rounded down |
| EditStandup.SliderDuration | Standups/EditStandup.swift:117 | moving the slider to `m` sets the length to exactly `m * 60` seconds, with no fraction of a second over |
| EditStandup.SliderRoundTrip | Standups/EditStandup.swift:60-62 | the slider reads back the position it was moved to, and never reads more than the length it shows |
| EditStandup.Step | Standups/EditStandup.swift:57-90 | every edit-form action keeps at least one attendee and unique ids, and never changes the standup's id or meetings; focus moves only when the user moves it (the two-way binding) or an attendee is added or deleted |
| RecordMeeting.Init | Standups/RecordMeeting.swift:4-17 | a new recorder starts at zero seconds and the first speaker, with the whole length remaining |
| RecordMeeting.DurationRemaining | Standups/RecordMeeting.swift:7-9 | elapsed seconds plus the remaining duration make up the standup's length |
| RecordMeeting.TotalDuration | Standups/RecordMeeting.swift:103-106 | the header's total, elapsed plus remaining, is always the standup's length |
| RecordMeeting.MeetingProgress | Standups/RecordMeeting.swift:108-112 | progress is a fraction exactly when the length is positive, namely the elapsed seconds over the length's whole seconds |
| RecordMeeting.ProgressWithinBounds | Standups/RecordMeeting.swift:103-112 | progress is a fraction between 0 and 1 while the elapsed seconds lie within the length, and none when the length is not positive |
| RecordMeeting.Step | Standups/RecordMeeting.swift:19-25 | the next and end-meeting buttons change nothing |
| RecordMeeting.CurrentSpeakerName | Standups/RecordMeeting.swift:173-179 | the timer names the attendee at the speaker index, or "Someone" past the end |
| RecordMeeting.ArcIndices | Standups/RecordMeeting.swift:153-168 | arcs are drawn only for attendees at positions up to the speaker's |
| RecordMeeting.ArcsDrawn | Standups/RecordMeeting.swift:153-168 | exactly the first `min(speakerIndex + 1, count)` attendees get an arc, one each, in order |
| RecordMeeting.SpeakerNamedIffArcsReachSpeaker | Standups/RecordMeeting.swift:153-179 | when an arc is drawn for each position up to the speaker's, the timer names the attendee at the speaker index; otherwise it names "Someone" |
| RecordMeeting.SpeakerText | Standups/RecordMeeting.swift:240-251 | the footer reads "No more speakers." exactly from the last speaker on, and otherwise begins "Speaker " |
| RecordMeeting.SpeakerTextAnnounces | Standups/RecordMeeting.swift:240-251 | while someone is still to come, the footer says "Speaker i of n" where i and n are the plain interpolations of the 1-based position and the count, and read back as them |
| RecordMeeting.MockFirstSpeakerText | Standups/RecordMeeting.swift:240-251 | on the mock standup the recorder opens on "Speaker 1 of 6" with Blob speaking |
| StandupDetail.Init | Standups/StandupDetail.swift:32-40 | a new detail screen presents nothing and holds the standup it was given, satisfying the invariant when the standup is well formed |
| StandupDetail.DeleteMeetings | Standups/StandupDetail.swift:71-73 | swiping removes exactly the swiped meetings, keeps unique ids, and changes nothing else |
| StandupDetail.DeleteMeetingsKeepsOthers | Standups/StandupDetail.swift:71-73 | every meeting that was not swiped stays, in order |
| StandupDetail.MeetingTapped | Standups/StandupDetail.swift:75-77 | tapping a meeting presents it and changes nothing else |
| StandupDetail.DeleteButtonTapped | Standups/StandupDetail.swift:79-81 | the delete button presents the confirmation alert and deletes nothing |
| StandupDetail.AlertButtonTapped | Standups/StandupDetail.swift:83-88 | confirming only raises `onConfirmDeletion`; the screen's state is unchanged |
| StandupDetail.EditButtonTapped | Standups/StandupDetail.swift:90-91 | the editor opens on a copy with the title focused (with one blank attendee added when the standup has none), and the standup stays as it was until editing is done |
| StandupDetail.CancelEditButtonTapped | Standups/StandupDetail.swift:107-109 | cancelling discards the copy and keeps the standup |
| StandupDetail.DoneEditingButtonTapped | Standups/StandupDetail.swift:111-116 | done always dismisses; the edited copy, with the same id, replaces the standup only when the editor was open |
| StandupDetail.StartMeetingButtonTapped | Standups/StandupDetail.swift:118-120 | a fresh recorder opens on the current standup |
| StandupDetail.MeetingFinished | Standups/StandupDetail.swift:43-64 | a finished recording dismisses the recorder and puts the new meeting first, ahead of the earlier ones in their order |
| StandupDetail.Step | Standups/StandupDetail.swift:71-120 | every detail action keeps unique ids and the standup's id, keeps at least one attendee, and only confirming deletion raises the callback |
| StandupsList.IndexOfId | Standups/StandupsList.swift:96 | the lookup by id finds the first standup with that id, or reports none exactly when there is none |
| StandupsList.RemoveById | Standups/StandupsList.swift:91-98 | `remove(id:)` drops the standup with that id, keeps the rest, and keeps ids unique |
| StandupsList.RemoveByIdIsRemoveAll | Standups/StandupsList.swift:95-96 | with unique ids, `remove(id:)` does what the commented-out `removeAll { $0.id == id }` would |
| StandupsList.SetById | Standups/StandupsList.swift:101-107 | `standups[id:] = standup` replaces the standup with that id in place, or appends it, and keeps ids unique |
| StandupsList.SetByIdPresent | Standups/StandupsList.swift:101-107 | syncing a standup the list already holds changes nothing |
| StandupsList.Append | Standups/StandupsList.swift:136 | appending to an identified array adds a standup with a new id at the end and ignores one whose id is taken |
| StandupsList.Decode | Standups/StandupsList.swift:64-71 | loading yields the stored standups when they decode, and an empty list when reading fails or the data has duplicate ids or ill-formed standups |
| StandupsList.Init | Standups/StandupsList.swift:60-71 | the list screen starts with nothing presented, the loaded standups, and the invariant |
| StandupsList.AddStandupButtonTapped | Standups/StandupsList.swift:114-116 | the add sheet opens on a new standup with default fields, one blank attendee and the title focused |
| StandupsList.DismissAddStandupButtonTapped | Standups/StandupsList.swift:118-120 | dismissing the sheet adds nothing |
| StandupsList.IsWhitespace | Standups/StandupsList.swift:129 | among ASCII characters exactly the space and tab to carriage return are whitespace; no printable ASCII character is |
| StandupsList.IsBlankName | Standups/StandupsList.swift:128-130 | an empty name is blank, and a name with any printable ASCII character is not |
| StandupsList.ConfirmedAttendees | Standups/StandupsList.swift:128-134 | the confirmed attendees are non-empty: either all with a real name and exactly as many as there are named attendees, or one placeholder |
| StandupsList.ConfirmedAttendeesKeepNamed | Standups/StandupsList.swift:128-130 | every attendee with a real name is kept, in order |
| StandupsList.ConfirmedAttendeesPlaceholder | Standups/StandupsList.swift:132-134 | the placeholder appears exactly when no attendee has a real name |
| StandupsList.ConfirmAddStandupButtonTapped | Standups/StandupsList.swift:122-137 | confirming always dismisses; when the add sheet was open, its cleaned-up standup joins the end of the list |
| StandupsList.StandupTapped | Standups/StandupsList.swift:139-141 | tapping a row opens its detail screen and syncs it into the list |
| StandupsList.DetailChanged | Standups/StandupsList.swift:88-107 | a confirmed deletion removes the standup and closes the detail; any other detail action writes the detail's standup back into the list |
| StandupsList.AddChanged | Standups/StandupsList.swift:109-110 | edits on the add sheet do not touch the list |
| StandupsList.Step | Standups/StandupsList.swift:88-141 | only confirming the add sheet and detail-screen actions change the list (tapping a row re-syncs a standup it already holds); dismissing or confirming the sheet closes it |
| StandupsList.InitInv | Standups/StandupsList.swift:60-71 | a fresh launch satisfies the invariant, and a failed load starts empty |
| StandupsList.StepKeepsInv | Standups/StandupsList.swift:88-141 | every list action keeps ids unique, the presented child consistent with the list, and every standup's attendees non-empty |
| StandupsList.AddThenConfirmFromEmpty | StandupsTests/StandupsListTests.swift:13-20 | adding and confirming from an empty list gives one standup, with one blank attendee |
| StandupsList.DeleteOnlyStandup | Standups/StandupsList.swift:91-98 | confirming deletion of the only standup empties the list and closes the detail |
| StandupsList.RenameThroughEditor | Standups/StandupDetail.swift:111-116 | renaming in the editor and tapping done renames the standup on the detail screen and in the list |
| StandupsList.FinishedMeetingReachesList | Standups/StandupDetail.swift:53-60 | a finished recording shows up first in the list's copy of the standup |

## Left out

- SwiftUI views, layout, colours (`mainColor`) and the arc geometry. Only the values the views compute from the controllers are modelled.
- Saving: the Combine pipeline that debounces the list for one second and writes it as JSON. It is timing and I/O; saving does not change the list.
- JSON encoding and decoding themselves. `Decode` takes the parsed array, or its absence, as input. It assumes that decoding an `IdentifiedArray` fails on duplicate ids, as that library's decoder does.
- StandupsList.Decode: its empty result for stored data with duplicate ids rests on this assumption about the decoder.
- `UUID()` and `Date()`: these are parameters of the steps.
- Models.Date: counts whole seconds since the reference date. Foundation's `Date` holds a `Double` interval, so sub-second precision is left out; the app only moves dates by whole weeks.
- The 400 ms clock sleep before a finished meeting is inserted. The insertion is modelled as immediate, in the same step as the dismissal.
- The recorder's timer loop, `onMeetingFinished` and `dismiss`: they are not part of `RecordMeetingModel` in this version of the app.
- The progress bar's floating-point division. `RecordMeeting.MeetingProgress` keeps the fraction instead.
- `Duration.formatted` and the slider's `Double` value. The slider is modelled at its whole-minute positions 5 to 30.
- `Int`/`Int128` overflow of the counters and of `Duration`: integers are unbounded here.
- Models.Capitalized: it is `String.capitalized` on ASCII text with ASCII word separators. Locale rules and non-ASCII letters are left out; every raw theme value is ASCII.
- StandupsList.IsWhitespace: it tests each Unicode scalar for the White_Space property. Grapheme clusters, which Swift's `Character.isWhitespace` checks by their first scalar, are left out.
- `weak self` captures, and the `destination` parameters of the controllers' initialisers. The app never passes one.
- Subscription lifetime: the detail→list sync subscription is modelled only while the detail is presented. A sync that a stale subscription could still deliver after the detail is dismissed is left out.

## Findings

| source | as written | input that shows it | evidently intended | confidence | as-written member | corrected member |
|---|---|---|---|---|---|---|
| Standups/EditStandup.swift:32 | after deleting, focus moves to `attendees[indices.first!]`, a position in the list that is left | two attendees, swipe-delete the second one (offsets `{1}`): one attendee is left and position 1 is out of range, so the subscript traps | focus moves to the attendee now at the first deleted position, clamped to the last attendee (and the selection is never empty) | not executed | EditStandup.DeleteAttendeesAsWritten | EditStandup.DeleteAttendees |

=== FILE: decimal.dfy ===
/** Swift's string interpolation of an `Int` ("\(n)"): plain decimal digits,
    with a leading "-" for negative values. */
module Decimal {
  import opened Optional

  predicate IsDigit(c: char) {
    '0' <= c <= '9'
  }

  predicate AllDigits(s: string) {
    forall k :: 0 <= k < |s| ==> IsDigit(s[k])
  }

  function DigitChar(d: nat): (c: char)
    requires d < 10
    ensures IsDigit(c)
  {
    "0123456789"[d]
  }

  function DigitValue(c: char): (d: nat)
    requires IsDigit(c)
    ensures d < 10
  {
    (c as int) - ('0' as int)
  }

  /** The decimal digits of `n`, most significant first, with no leading
      zero except for `0` itself. */
  function Digits(n: nat): (s: string)
    ensures 1 <= |s|
    ensures AllDigits(s)
    ensures |s| > 1 ==> s[0] != '0'
    decreases n
  {
    if n < 10 then [DigitChar(n)] else Digits(n / 10) + [DigitChar(n % 10)]
  }

  /** `"\(i)"`: a minus sign exactly for negative values, then the
      canonical digits of the magnitude. */
  function Describe(i: int): (r: string)
    ensures 0 < |r| && (r[0] == '-' <==> i < 0)
    ensures var magnitude := if i < 0 then r[1..] else r;
            1 <= |magnitude| && AllDigits(magnitude) && (|magnitude| > 1 ==> magnitude[0] != '0')
  {
    if i < 0 then
      var r := "-" + Digits(-i);
      assert r[1..] == Digits(-i);
      r
    else
      Digits(i)
  }

  /** The value of a string of decimal digits. */
  function ValueOf(s: string): nat
    requires AllDigits(s)
  {
    if |s| == 0 then 0 else 10 * ValueOf(s[..|s| - 1]) + DigitValue(s[|s| - 1])
  }

  /** Reads back an unsigned run of decimal digits. */
  function ParseUnsignedDigits(s: string): Option<nat> {
    if 0 < |s| && AllDigits(s) then Some(ValueOf(s)) else None
  }

  /** Reads back an optionally negative run of decimal digits. */
  function Parse(s: string): Option<int> {
    if |s| > 0 && s[0] == '-' then
      match ParseUnsignedDigits(s[1..])
      case None => None
      case Some(v) => Some(0 - v)
    else
      match ParseUnsignedDigits(s)
      case None => None
      case Some(v) => Some(v)
  }

  lemma {:induction false} DigitsValue(n: nat)
    ensures ValueOf(Digits(n)) == n
    decreases n
  {
    if n >= 10 {
      DigitsValue(n / 10);
      var s := Digits(n);
      assert s[..|s| - 1] == Digits(n / 10);
    }
  }

  /** A leading minus sign negates what the digits after it read as. */
  lemma {:induction false} ParseMinus(s: string)
    ensures Parse("-" + s) == match ParseUnsignedDigits(s) case None => None case Some(v) => Some(0 - v)
  {
    assert ("-" + s)[1..] == s;
  }

  /** The digits of a natural number read back as that number. */
  lemma {:induction false} DigitsParse(n: nat)
    ensures ParseUnsignedDigits(Digits(n)) == Some(n)
  {
    DigitsValue(n);
  }

  /** A natural number's digits, unsigned, read back as the number. */
  lemma {:induction false} ParseDigits(n: nat)
    ensures Parse(Digits(n)) == Some(n)
  {
    DigitsParse(n);
    assert IsDigit(Digits(n)[0]);
  }

  /** A natural number's digits after a minus sign read back as its
      negation. */
  lemma {:induction false} ParseNegatedDigits(n: nat)
    ensures Parse("-" + Digits(n)) == Some(-(n as int))
  {
    DigitsParse(n);
    ParseMinus(Digits(n));
  }

  /** The interpolated text of an integer reads back as that integer. */
  lemma {:induction false} DescribeRoundTrip(i: int)
    ensures Parse(Describe(i)) == Some(i)
  {
    if i < 0 {
      ParseNegatedDigits(-i);
      assert Describe(i) == "-" + Digits(-i);
    } else {
      ParseDigits(i);
      assert Describe(i) == Digits(i);
    }
  }
}

=== FILE: edit_standup.dfy ===
/** The edit controller (`EditStandupModel`): a scratch copy of a standup
    and the input focus of the edit form. */
module EditStandup {
  import opened Optional
  import opened Offsets
  import opened Models

  /** `EditStandupView.Field`: the title field or one attendee's name field. */
  datatype Field = Title | AttendeeField(id: AttendeeId)

  datatype EditState = EditState(focus: Option<Field>, standup: Standup)

  /** The focus `init` starts with unless told otherwise. */
  const DefaultFocus: Option<Field> := Some(Title)

  /** A fresh attendee with no name yet. */
  function Blank(id: AttendeeId): Attendee {
    Attendee(id, "")
  }

  /** What holds while the editor is open: at least one attendee, and the
      identified collections keep unique ids. */
  predicate Inv(e: EditState) {
    |e.standup.attendees| >= 1 && WellFormed(e.standup)
  }

  /** `init(focus:standup:)`: a standup without attendees gets one blank
      attendee (with the freshly drawn `placeholderId`); any other standup is
      taken as it is. */
  function Init(focus: Option<Field>, standup: Standup, placeholderId: AttendeeId): (e: EditState)
    ensures e.focus == focus
    ensures |standup.attendees| >= 1 ==> e.standup == standup
    ensures |standup.attendees| == 0 ==> e.standup == standup.(attendees := [Blank(placeholderId)])
    ensures WellFormed(standup) ==> Inv(e)
  {
    if |standup.attendees| == 0 then EditState(focus, standup.(attendees := standup.attendees + [Blank(placeholderId)]))
    else EditState(focus, standup)
  }

  /** `addAttendeeButtonTapped`: one blank attendee with the fresh id
      `newId` joins at the end, the earlier ones stay as they were, and the
      new attendee's name field takes focus. */
  function AddAttendeeButtonTapped(e: EditState, newId: AttendeeId): (r: EditState)
    requires !HasAttendee(e.standup.attendees, newId)
    ensures |r.standup.attendees| == |e.standup.attendees| + 1
    ensures r.standup.attendees[..|e.standup.attendees|] == e.standup.attendees
    ensures r.standup.attendees[|e.standup.attendees|] == Blank(newId)
    ensures r.focus == Some(AttendeeField(newId))
    ensures r.standup == e.standup.(attendees := r.standup.attendees)
    ensures Inv(e) ==> Inv(r)
  {
    var attendee := Blank(newId);
    EditState(Some(AttendeeField(attendee.id)), e.standup.(attendees := e.standup.attendees + [attendee]))
  }

  /** The attendee list once the rows at `indices` are gone: the survivors,
      or a single blank placeholder when no one survives. */
  function Remaining(attendees: seq<Attendee>, indices: set<nat>, placeholderId: AttendeeId): (r: seq<Attendee>)
    ensures |r| >= 1
  {
    var survivors := RemoveAt(attendees, indices);
    if |survivors| == 0 then survivors + [Blank(placeholderId)] else survivors
  }

  /** `deleteAttendees(atOffsets:)` exactly as written: focus moves to the
      attendee at position `indices.first` of the list left behind. `None`
      stands for the trap of `indices.first!` on an empty selection, or of
      the subscript when that position no longer exists. */
  function DeleteAttendeesAsWritten(e: EditState, indices: set<nat>, placeholderId: AttendeeId): (r: Option<EditState>)
    requires InRange(indices, |e.standup.attendees|)
    ensures r.Some? ==> r.value.standup == e.standup.(attendees := Remaining(e.standup.attendees, indices, placeholderId))
  {
    var remaining := Remaining(e.standup.attendees, indices, placeholderId);
    if indices == {} then None
    else
      var first := First(indices);
      if first < |remaining| then
        Some(EditState(Some(AttendeeField(remaining[first].id)), e.standup.(attendees := remaining)))
      else None
  }

  /** Some attendee after position `f` survives the deletion. */
  predicate SurvivorAfter(indices: set<nat>, f: nat, n: nat) {
    exists j :: f < j < n && j !in indices
  }

  /** Every position below `n` is deleted. */
  predicate DeletesAll(indices: set<nat>, n: nat) {
    forall i :: 0 <= i < n ==> i in indices
  }

  /** `deleteAttendees(atOffsets:)` with the focus position clamped to the
      list that is left (`min(indices.first!, count - 1)`), so it cannot trap;
      an empty selection leaves focus where it was. The rest of the model
      uses this one. */
  function DeleteAttendees(e: EditState, indices: set<nat>, placeholderId: AttendeeId): (r: EditState)
    requires InRange(indices, |e.standup.attendees|)
    ensures DeletesAll(indices, |e.standup.attendees|) ==> r.standup.attendees == [Blank(placeholderId)]
    ensures !DeletesAll(indices, |e.standup.attendees|) ==> r.standup.attendees == RemoveAt(e.standup.attendees, indices)
    ensures |r.standup.attendees| ==
              if |indices| == |e.standup.attendees| then 1 else |e.standup.attendees| - |indices|
    ensures r.standup == e.standup.(attendees := r.standup.attendees)
    ensures indices == {} ==> r.focus == e.focus
    ensures indices != {} ==>
              exists k :: 0 <= k < |r.standup.attendees| && r.focus == Some(AttendeeField(r.standup.attendees[k].id))
    ensures Inv(e) ==> Inv(r)
  {
    var n := |e.standup.attendees|;
    RemoveAtEmpty(e.standup.attendees, indices);
    RemoveAtLength(e.standup.attendees, indices);
    RemoveAttendeesUnique(e.standup.attendees, indices);
    var remaining := Remaining(e.standup.attendees, indices, placeholderId);
    if indices == {} then
      EditState(e.focus, e.standup.(attendees := remaining))
    else
      var first := First(indices);
      var k := if first < |remaining| then first else |remaining| - 1;
      EditState(Some(AttendeeField(remaining[k].id)), e.standup.(attendees := remaining))
  }

  /** When some attendee after the first deleted row survives, focus moves
      to the nearest such attendee: it is the one that slides up into the
      first deleted position. */
  lemma {:induction false} FocusMovesToNextSurvivor(e: EditState, indices: set<nat>, placeholderId: AttendeeId, j: nat)
    requires InRange(indices, |e.standup.attendees|) && indices != {}
    requires First(indices) < j < |e.standup.attendees| && j !in indices
    requires forall i :: First(indices) < i < j ==> i in indices
    ensures DeleteAttendees(e, indices, placeholderId).focus == Some(AttendeeField(e.standup.attendees[j].id))
  {
    var n := |e.standup.attendees|;
    var f := First(indices);
    DeletedBeforeRun(indices, f, j);
    RemoveAtKeeps(e.standup.attendees, indices, j);
  }

  /** When no attendee after the first deleted row survives but some
      attendee does, focus moves to the attendee just above that row, which
      is now the last one. */
  lemma {:induction false} FocusClampsToLast(e: EditState, indices: set<nat>, placeholderId: AttendeeId)
    requires InRange(indices, |e.standup.attendees|) && indices != {}
    requires !SurvivorAfter(indices, First(indices), |e.standup.attendees|)
    requires !DeletesAll(indices, |e.standup.attendees|)
    ensures First(indices) >= 1
    ensures var r := DeleteAttendees(e, indices, placeholderId);
            r.focus == Some(AttendeeField(e.standup.attendees[First(indices) - 1].id))
            && r.focus == Some(AttendeeField(r.standup.attendees[|r.standup.attendees| - 1].id))
  {
    var n := |e.standup.attendees|;
    var f := First(indices);
    assert indices == Interval(f, n);
    assert f >= 1 by {
      var i :| 0 <= i < n && i !in indices;
    }
    RemoveAtLength(e.standup.attendees, indices);
    DeletedBeforeNone(indices, f - 1);
    RemoveAtKeeps(e.standup.attendees, indices, f - 1);
  }

  /** When every attendee is deleted, focus moves to the placeholder. */
  lemma {:induction false} FocusOnPlaceholder(e: EditState, indices: set<nat>, placeholderId: AttendeeId)
    requires InRange(indices, |e.standup.attendees|) && indices != {}
    requires DeletesAll(indices, |e.standup.attendees|)
    ensures DeleteAttendees(e, indices, placeholderId).focus == Some(AttendeeField(placeholderId))
  {
  }

  /** The code as written traps exactly when the selection is empty, or
      when some attendee survives but none after the first deleted row (as
      when the last of several rows is deleted). */
  lemma {:induction false} AsWrittenTrapsIff(e: EditState, indices: set<nat>, placeholderId: AttendeeId)
    requires InRange(indices, |e.standup.attendees|)
    ensures DeleteAttendeesAsWritten(e, indices, placeholderId).None? <==>
              indices == {} ||
              (!SurvivorAfter(indices, First(indices), |e.standup.attendees|)
               && !DeletesAll(indices, |e.standup.attendees|))
  {
    var n := |e.standup.attendees|;
    if indices != {} {
      var f := First(indices);
      if SurvivorAfter(indices, f, n) {
        AsWrittenFindsSurvivor(e, indices, placeholderId);
      } else if !DeletesAll(indices, n) {
        AsWrittenOverrunsSurvivors(e, indices, placeholderId);
      } else {
        AsWrittenFindsPlaceholder(e, indices, placeholderId);
      }
    }
  }

  lemma {:induction false} AsWrittenFindsSurvivor(e: EditState, indices: set<nat>, placeholderId: AttendeeId)
    requires InRange(indices, |e.standup.attendees|) && indices != {}
    requires SurvivorAfter(indices, First(indices), |e.standup.attendees|)
    ensures DeleteAttendeesAsWritten(e, indices, placeholderId).Some?
  {
    var n := |e.standup.attendees|;
    var f := First(indices);
    var j :| f < j < n && j !in indices;
    RemoveAtKeeps(e.standup.attendees, indices, j);
    DeletedBeforeUpTo(indices, f, j);
  }

  lemma {:induction false} AsWrittenOverrunsSurvivors(e: EditState, indices: set<nat>, placeholderId: AttendeeId)
    requires InRange(indices, |e.standup.attendees|) && indices != {}
    requires !SurvivorAfter(indices, First(indices), |e.standup.attendees|)
    requires !DeletesAll(indices, |e.standup.attendees|)
    ensures DeleteAttendeesAsWritten(e, indices, placeholderId).None?
  {
    var n := |e.standup.attendees|;
    var f := First(indices);
    RemoveAtEmpty(e.standup.attendees, indices);
    RemoveAtLength(e.standup.attendees, indices);
    assert indices == Interval(f, n);
  }

  lemma {:induction false} AsWrittenFindsPlaceholder(e: EditState, indices: set<nat>, placeholderId: AttendeeId)
    requires InRange(indices, |e.standup.attendees|) && indices != {}
    requires DeletesAll(indices, |e.standup.attendees|)
    ensures DeleteAttendeesAsWritten(e, indices, placeholderId).Some?
  {
    var n := |e.standup.attendees|;
    RemoveAtEmpty(e.standup.attendees, indices);
    assert First(indices) == 0 by {
      assert 0 in indices;
    }
  }

  /** At most `j - f` positions before `j` are deleted when nothing below
      `f` is. */
  lemma {:induction false} DeletedBeforeUpTo(indices: set<nat>, f: nat, j: nat)
    requires f <= j
    requires forall i :: i in indices ==> f <= i
    ensures DeletedBefore(indices, j) <= j - f
  {
    if j == f {
      DeletedBeforeNone(indices, f);
    } else {
      DeletedBeforeUpTo(indices, f, j - 1);
    }
  }

  /** Where the code as written does not trap, it does what the corrected
      version does. */
  lemma {:induction false} AsWrittenAgrees(e: EditState, indices: set<nat>, placeholderId: AttendeeId)
    requires InRange(indices, |e.standup.attendees|)
    requires DeleteAttendeesAsWritten(e, indices, placeholderId).Some?
    ensures DeleteAttendeesAsWritten(e, indices, placeholderId).value == DeleteAttendees(e, indices, placeholderId)
  {
  }

  /** Deleting the last of two attendees traps in the code as written:
      one attendee is left, at position 0, and focus looks up position 1. */
  lemma DeleteLastOfTwoTraps(e: EditState, placeholderId: AttendeeId)
    requires |e.standup.attendees| == 2
    ensures DeleteAttendeesAsWritten(e, {1}, placeholderId) == None
  {
    RemoveAtLength(e.standup.attendees, {1});
  }

  /** The length slider's reading of a duration: whole minutes, truncated. */
  function SliderMinutes(d: Duration): (m: int)
    ensures d.attoseconds >= 0 ==> m >= 0 && m * 60 <= WholeSeconds(d) < m * 60 + 60
  {
    TruncatingDivide(WholeSeconds(d), 60)
  }

  /** The duration the length slider writes when moved to `minutes`. */
  function SliderDuration(minutes: int): (d: Duration)
    ensures WholeSeconds(d) == minutes * 60
    ensures d.attoseconds % AttosecondsPerSecond == 0
  {
    Seconds(minutes * 60)
  }

  /** The slider reads back the position it was moved to, and reads a
      duration that is not a whole number of minutes at the minute below. */
  lemma {:induction false} SliderRoundTrip(minutes: int, d: Duration)
    ensures SliderMinutes(SliderDuration(minutes)) == minutes
    ensures d.attoseconds >= 0 ==> SliderDuration(SliderMinutes(d)).attoseconds <= d.attoseconds
  {
    var m := minutes;
    assert SliderMinutes(SliderDuration(m)) == TruncatingDivide(m * 60, 60);
    if m * 60 >= 0 {
      assert m >= 0;
      assert (m * 60) / 60 == m;
    } else {
      assert m < 0;
      assert (-(m * 60)) / 60 == -m;
    }
    if d.attoseconds >= 0 {
      var w := WholeSeconds(d);
      var k := SliderMinutes(d);
      assert w * AttosecondsPerSecond <= d.attoseconds;
      assert k * 60 <= w;
      assert SliderDuration(k).attoseconds == (k * 60) * AttosecondsPerSecond;
      assert (k * 60) * AttosecondsPerSecond <= w * AttosecondsPerSecond;
    }
  }

  /** The lowest and highest positions the slider offers. */
  const SliderLowest: int := 5
  const SliderHighest: int := 30

  /** The form's own writes to the scratch standup and to the focus (the
      view binds `focus` both ways, so the user moving the cursor writes
      it), and its two buttons. */
  datatype EditAction =
    | FocusChanged(focus: Option<Field>)
    | TitleChanged(title: string)
    | DurationSliderMoved(minutes: int)
    | ThemeChanged(theme: Theme)
    | AttendeeNameChanged(index: nat, name: string)
    | AddAttendeeTapped(newId: AttendeeId)
    | DeleteAttendeesSwiped(indices: set<nat>, placeholderId: AttendeeId)

  /** An action the form can send in state `e`: focus moves only to a field
      on the form (or away from every field), the slider stays within its
      range, a name field exists for every attendee, swiped rows exist, and
      a new attendee's UUID is fresh. */
  predicate Enabled(e: EditState, a: EditAction) {
    match a
    case FocusChanged(focus) =>
      focus.Some? && focus.value.AttendeeField? ==> HasAttendee(e.standup.attendees, focus.value.id)
    case DurationSliderMoved(minutes) => SliderLowest <= minutes <= SliderHighest
    case AttendeeNameChanged(i, _) => i < |e.standup.attendees|
    case AddAttendeeTapped(newId) => !HasAttendee(e.standup.attendees, newId)
    case DeleteAttendeesSwiped(indices, _) => InRange(indices, |e.standup.attendees|)
    case _ => true
  }

  /** One step of the editor. Every step keeps the invariant and the
      standup's id, and never touches its meetings; focus moves only when
      the user moves it or an attendee is added or deleted, and moving it
      changes nothing else. */
  function Step(e: EditState, a: EditAction): (r: EditState)
    requires Enabled(e, a)
    ensures Inv(e) ==> Inv(r)
    ensures r.standup.id == e.standup.id && r.standup.meetings == e.standup.meetings
    ensures r.focus != e.focus ==> a.FocusChanged? || a.AddAttendeeTapped? || a.DeleteAttendeesSwiped?
    ensures a.FocusChanged? ==> r.focus == a.focus && r.standup == e.standup
  {
    match a
    case FocusChanged(focus) => e.(focus := focus)
    case TitleChanged(title) => e.(standup := e.standup.(title := title))
    case DurationSliderMoved(minutes) => e.(standup := e.standup.(duration := SliderDuration(minutes)))
    case ThemeChanged(theme) => e.(standup := e.standup.(theme := theme))
    case AttendeeNameChanged(i, name) =>
      var attendees := e.standup.attendees;
      e.(standup := e.standup.(attendees := attendees[i := attendees[i].(name := name)]))
    case AddAttendeeTapped(newId) => AddAttendeeButtonTapped(e, newId)
    case DeleteAttendeesSwiped(indices, placeholderId) => DeleteAttendees(e, indices, placeholderId)
  }
}

=== FILE: models.dfy ===
/** The entity model of the standups app: standups, their attendees and
    past meetings, and the sixteen colour themes. */
module Models {
  import opened Optional
  import opened Offsets

  /** A 128-bit UUID. */
  newtype Uuid = x: int | 0 <= x < 0x1_0000_0000_0000_0000_0000_0000_0000_0000

  // Each entity has its own id type (`Tagged<Self, UUID>`), so comparing a
  // standup id with an attendee id does not type-check, here as there.
  datatype StandupId = StandupId(uuid: Uuid)
  datatype AttendeeId = AttendeeId(uuid: Uuid)
  datatype MeetingId = MeetingId(uuid: Uuid)

  /** A point in time, in whole seconds since the reference date. */
  datatype Date = Date(secondsSinceReferenceDate: int)

  function AddingTimeInterval(d: Date, seconds: int): (r: Date)
    ensures r.secondsSinceReferenceDate - d.secondsSinceReferenceDate == seconds
  {
    Date(d.secondsSinceReferenceDate + seconds)
  }

  /** Swift's `Duration` counts attoseconds. */
  const AttosecondsPerSecond: int := 1_000_000_000_000_000_000

  datatype Duration = Duration(attoseconds: int)

  /** `.seconds(n)`: exactly `n` whole seconds, with no fraction of a
      second left over. */
  function Seconds(n: int): (r: Duration)
    ensures WholeSeconds(r) == n
    ensures r.attoseconds % AttosecondsPerSecond == 0
  {
    Duration(n * AttosecondsPerSecond)
  }

  /** `Duration - Duration`. */
  function Minus(a: Duration, b: Duration): (r: Duration)
    ensures r.attoseconds + b.attoseconds == a.attoseconds
  {
    Duration(a.attoseconds - b.attoseconds)
  }

  /** `Duration + Duration`, undone by subtracting the second operand. */
  function Plus(a: Duration, b: Duration): (r: Duration)
    ensures Minus(r, b) == a
  {
    Duration(a.attoseconds + b.attoseconds)
  }

  /** The whole seconds of a duration (`components.seconds`), truncated
      toward zero. */
  function WholeSeconds(d: Duration): (w: int)
    ensures d.attoseconds >= 0 ==>
              w >= 0 && w * AttosecondsPerSecond <= d.attoseconds < w * AttosecondsPerSecond + AttosecondsPerSecond
    ensures d.attoseconds < 0 ==>
              w <= 0 && w * AttosecondsPerSecond - AttosecondsPerSecond < d.attoseconds <= w * AttosecondsPerSecond
  {
    TruncatingDivide(d.attoseconds, AttosecondsPerSecond)
  }

  /** Integer division that truncates toward zero, as Swift's does. */
  function TruncatingDivide(a: int, n: nat): int
    requires n > 0
  {
    if a >= 0 then a / n else -((-a) / n)
  }

  /** `Duration / Int` for a positive divisor: the attosecond count divided
      with truncation toward zero. */
  function DividedBy(d: Duration, n: nat): (r: Duration)
    requires n > 0
    ensures d.attoseconds >= 0 ==> r.attoseconds >= 0 && r.attoseconds * n <= d.attoseconds < r.attoseconds * n + n
    ensures d.attoseconds < 0 ==> r.attoseconds <= 0 && r.attoseconds * n - n < d.attoseconds <= r.attoseconds * n
  {
    Duration(TruncatingDivide(d.attoseconds, n))
  }

  /** The sixteen themes, in declaration order. */
  datatype Theme =
    | Bubblegum | Buttercup | Indigo | Lavender | Magenta | Navy | Orange | Oxblood
    | Periwinkle | Poppy | Purple | Seafoam | Sky | Tan | Teal | Yellow

  /** The raw value each case is stored under: one lower-case word. */
  function RawValue(t: Theme): (raw: string)
    ensures IsLowerWord(raw)
  {
    match t
    case Bubblegum => "bubblegum"
    case Buttercup => "buttercup"
    case Indigo => "indigo"
    case Lavender => "lavender"
    case Magenta => "magenta"
    case Navy => "navy"
    case Orange => "orange"
    case Oxblood => "oxblood"
    case Periwinkle => "periwinkle"
    case Poppy => "poppy"
    case Purple => "purple"
    case Seafoam => "seafoam"
    case Sky => "sky"
    case Tan => "tan"
    case Teal => "teal"
    case Yellow => "yellow"
  }

  /** `Theme(rawValue:)`: the case stored under `raw`, if any. */
  function FromRawValue(raw: string): (r: Option<Theme>)
    ensures r.Some? ==> RawValue(r.value) == raw
    ensures r.None? ==> forall t :: RawValue(t) != raw
  {
    if raw == "bubblegum" then Some(Bubblegum)
    else if raw == "buttercup" then Some(Buttercup)
    else if raw == "indigo" then Some(Indigo)
    else if raw == "lavender" then Some(Lavender)
    else if raw == "magenta" then Some(Magenta)
    else if raw == "navy" then Some(Navy)
    else if raw == "orange" then Some(Orange)
    else if raw == "oxblood" then Some(Oxblood)
    else if raw == "periwinkle" then Some(Periwinkle)
    else if raw == "poppy" then Some(Poppy)
    else if raw == "purple" then Some(Purple)
    else if raw == "seafoam" then Some(Seafoam)
    else if raw == "sky" then Some(Sky)
    else if raw == "tan" then Some(Tan)
    else if raw == "teal" then Some(Teal)
    else if raw == "yellow" then Some(Yellow)
    else None
  }

  /** Decoding a theme's raw value gives back the theme. */
  lemma RawValueRoundTrip(t: Theme)
    ensures FromRawValue(RawValue(t)) == Some(t)
  {
  }

  /** No two themes share a raw value. */
  lemma RawValueInjective(t: Theme, u: Theme)
    ensures RawValue(t) == RawValue(u) ==> t == u
  {
    RawValueRoundTrip(t);
    RawValueRoundTrip(u);
  }

  /** `Theme.allCases`. */
  const AllCases: seq<Theme> := [
    Bubblegum, Buttercup, Indigo, Lavender, Magenta, Navy, Orange, Oxblood,
    Periwinkle, Poppy, Purple, Seafoam, Sky, Tan, Teal, Yellow
  ]

  /** `allCases` lists every theme exactly once: sixteen distinct cases. */
  lemma AllCasesComplete(t: Theme)
    ensures |AllCases| == 16
    ensures t in AllCases
    ensures forall i, j :: 0 <= i < j < |AllCases| ==> AllCases[i] != AllCases[j]
  {
  }

  datatype Color = Black | White

  /** The raw values of the five dark themes, which take a white accent. */
  predicate IsDarkRawValue(raw: string) {
    raw in {"indigo", "magenta", "navy", "oxblood", "purple"}
  }

  /** `Theme.accentColor`: white on the five dark themes, black on the
      others. */
  function AccentColor(t: Theme): (c: Color)
    ensures c == White <==> IsDarkRawValue(RawValue(t))
  {
    match t
    case Indigo | Magenta | Navy | Oxblood | Purple => White
    case _ => Black
  }

  /** How many themes in `ts`, from position `i` on, have the accent
      colour `c`. */
  function CountAccent(ts: seq<Theme>, c: Color, i: nat): (k: nat)
    requires i <= |ts|
    ensures k <= |ts| - i
    decreases |ts| - i
  {
    if i == |ts| then 0 else (if AccentColor(ts[i]) == c then 1 else 0) + CountAccent(ts, c, i + 1)
  }

  /** Every theme has one of the two accent colours. */
  lemma {:induction false} AccentColorsPartition(ts: seq<Theme>, i: nat)
    requires i <= |ts|
    ensures CountAccent(ts, White, i) + CountAccent(ts, Black, i) == |ts| - i
    decreases |ts| - i
  {
    if i < |ts| {
      AccentColorsPartition(ts, i + 1);
    }
  }

  /** Five themes take a white accent and the other eleven a black one. */
  lemma AccentColorCounts()
    ensures CountAccent(AllCases, White, 0) == 5 && CountAccent(AllCases, Black, 0) == 11
  {
    var a := AllCases;
    assert CountAccent(a, White, 16) == 0;
    assert CountAccent(a, White, 15) == 0;
    assert CountAccent(a, White, 14) == 0;
    assert CountAccent(a, White, 13) == 0;
    assert CountAccent(a, White, 12) == 0;
    assert CountAccent(a, White, 11) == 0;
    assert CountAccent(a, White, 10) == 1;
    assert CountAccent(a, White, 9) == 1;
    assert CountAccent(a, White, 8) == 1;
    assert CountAccent(a, White, 7) == 2;
    assert CountAccent(a, White, 6) == 2;
    assert CountAccent(a, White, 5) == 3;
    assert CountAccent(a, White, 4) == 4;
    assert CountAccent(a, White, 3) == 4;
    assert CountAccent(a, White, 2) == 5;
    assert CountAccent(a, White, 1) == 5;
    AccentColorsPartition(a, 0);
  }

  predicate IsWordBoundary(c: char) {
    c == ' ' || c == '\t' || c == '\n' || c == '\r'
  }

  function Upper(c: char): char {
    if 'a' <= c <= 'z' then (c as int - 32) as char else c
  }

  function Lower(c: char): char {
    if 'A' <= c <= 'Z' then (c as int + 32) as char else c
  }

  /** `String.capitalized` on ASCII text: the first letter of each word in
      upper case and every other letter in lower case. */
  function Capitalized(s: string): (r: string)
    ensures |r| == |s|
  {
    seq(|s|, i requires 0 <= i < |s| => if i == 0 || IsWordBoundary(s[i - 1]) then Upper(s[i]) else Lower(s[i]))
  }

  /** `Theme.name`: the raw value with its first letter in upper case. */
  function Name(t: Theme): (name: string)
    ensures |name| == |RawValue(t)|
    ensures name == [Upper(RawValue(t)[0])] + RawValue(t)[1..]
    ensures 'A' <= name[0] <= 'Z'
  {
    CapitalizedLowerWord(RawValue(t));
    Capitalized(RawValue(t))
  }

  predicate IsLowerWord(s: string) {
    0 < |s| && forall i :: 0 <= i < |s| ==> 'a' <= s[i] <= 'z'
  }

  /** Capitalizing a single lower-case word upper-cases its first letter
      and leaves the rest as it is. */
  lemma {:induction false} CapitalizedLowerWord(s: string)
    requires IsLowerWord(s)
    ensures Capitalized(s) == [Upper(s[0])] + s[1..]
    ensures 'A' <= Capitalized(s)[0] <= 'Z'
  {
    var r := Capitalized(s);
    forall i | 1 <= i < |s| ensures r[i] == s[i] {
      assert 'a' <= s[i - 1] <= 'z' && 'a' <= s[i] <= 'z';
    }
    assert r[1..] == s[1..];
    assert r == [r[0]] + r[1..];
  }

  /** The default theme is displayed as "Bubblegum". */
  lemma BubblegumName()
    ensures Name(Bubblegum) == "Bubblegum"
  {
  }

  datatype Attendee = Attendee(id: AttendeeId, name: string)

  datatype Meeting = Meeting(id: MeetingId, date: Date, transcript: string)

  datatype Standup = Standup(
    id: StandupId,
    attendees: seq<Attendee>,
    duration: Duration,
    meetings: seq<Meeting>,
    theme: Theme,
    title: string)

  predicate UniqueAttendeeIds(attendees: seq<Attendee>) {
    forall i, j :: 0 <= i < j < |attendees| ==> attendees[i].id != attendees[j].id
  }

  predicate UniqueMeetingIds(meetings: seq<Meeting>) {
    forall i, j :: 0 <= i < j < |meetings| ==> meetings[i].id != meetings[j].id
  }

  predicate HasAttendee(attendees: seq<Attendee>, id: AttendeeId) {
    exists i :: 0 <= i < |attendees| && attendees[i].id == id
  }

  predicate HasMeeting(meetings: seq<Meeting>, id: MeetingId) {
    exists i :: 0 <= i < |meetings| && meetings[i].id == id
  }

  /** The two `IdentifiedArray`s inside a standup hold unique ids. */
  predicate WellFormed(s: Standup) {
    UniqueAttendeeIds(s.attendees) && UniqueMeetingIds(s.meetings)
  }

  /** Removing attendees by position keeps their ids unique. */
  lemma {:induction false} RemoveAttendeesUnique(attendees: seq<Attendee>, indices: set<nat>)
    ensures UniqueAttendeeIds(attendees) ==> UniqueAttendeeIds(RemoveAt(attendees, indices))
  {
    if UniqueAttendeeIds(attendees) {
      var distinct := (a: Attendee, b: Attendee) => a.id != b.id;
      assert Pairwise(attendees, distinct);
      RemoveAtPairwise(attendees, indices, distinct);
    }
  }

  /** Removing meetings by position keeps their ids unique. */
  lemma {:induction false} RemoveMeetingsUnique(meetings: seq<Meeting>, indices: set<nat>)
    ensures UniqueMeetingIds(meetings) ==> UniqueMeetingIds(RemoveAt(meetings, indices))
  {
    if UniqueMeetingIds(meetings) {
      var distinct := (a: Meeting, b: Meeting) => a.id != b.id;
      assert Pairwise(meetings, distinct);
      RemoveAtPairwise(meetings, indices, distinct);
    }
  }

  const DefaultDuration: Duration := Seconds(60 * 5)
  const DefaultTheme: Theme := Bubblegum

  /** `Standup(id:)`, every other field at its default. */
  function NewStandup(id: StandupId): (s: Standup)
    ensures s.id == id && s.attendees == [] && s.meetings == [] && s.title == ""
    ensures s.duration == Seconds(300) && s.theme == Bubblegum
    ensures WellFormed(s)
  {
    Standup(id, [], DefaultDuration, [], DefaultTheme, "")
  }

  /** `durationPerAttendee`: the meeting length shared out over the
      attendees. Swift traps on a division by zero, hence the requirement. */
  function DurationPerAttendee(s: Standup): (d: Duration)
    requires |s.attendees| >= 1
    ensures s.duration.attoseconds >= 0 ==>
              0 <= d.attoseconds * |s.attendees| <= s.duration.attoseconds < (d.attoseconds + 1) * |s.attendees|
    ensures s.duration.attoseconds < 0 ==>
              (d.attoseconds - 1) * |s.attendees| < s.duration.attoseconds <= d.attoseconds * |s.attendees| <= 0
  {
    DividedBy(s.duration, |s.attendees|)
  }

  lemma {:induction false} MulAtLeast(k: int, n: nat)
    requires k >= 1
    ensures k * n >= n
    decreases k
  {
    if k > 1 {
      MulAtLeast(k - 1, n);
      assert k * n == (k - 1) * n + n;
    }
  }

  /** The quotient bracketed by `r * n <= x * n < r * n + n` is `x`. */
  lemma {:induction false} MulCancel(x: int, r: int, n: nat)
    requires n > 0 && r * n <= x * n < r * n + n
    ensures r == x
  {
    assert (x - r) * n == x * n - r * n;
    assert (r - x) * n == r * n - x * n;
    if r < x {
      MulAtLeast(x - r, n);
    } else if r > x {
      MulAtLeast(r - x, n);
    }
  }

  /** A whole number of seconds that the attendee count divides is shared
      out exactly. */
  lemma {:induction false} DurationPerAttendeeExact(s: Standup, seconds: int)
    requires |s.attendees| >= 1 && s.duration == Seconds(seconds) && seconds >= 0
    requires seconds % |s.attendees| == 0
    ensures DurationPerAttendee(s) == Seconds(seconds / |s.attendees|)
  {
    var n := |s.attendees|;
    var q := seconds / n;
    var x := q * AttosecondsPerSecond;
    assert seconds == q * n;
    assert s.duration.attoseconds == x * n by {
      assert seconds * AttosecondsPerSecond == (q * n) * AttosecondsPerSecond;
      assert (q * n) * AttosecondsPerSecond == (q * AttosecondsPerSecond) * n;
    }
    var d := DurationPerAttendee(s);
    MulCancel(x, d.attoseconds, n);
  }

  const LoremIpsum: string :=
    "Lorem ipsum dolor sit amet, consectetur adipiscing elit, sed do eiusmod tempor "
    + "incididunt ut labore et dolore magna aliqua. Ut enim ad minim veniam, quis nostrud "
    + "exercitation ullamco laboris nisi ut aliquip ex ea commodo consequat. Duis aute irure "
    + "dolor in reprehenderit in voluptate velit esse cillum dolore eu fugiat nulla pariatur. "
    + "Excepteur sint occaecat cupidatat non proident, sunt in culpa qui officia deserunt "
    + "mollit anim id est laborum."

  const SecondsPerWeek: int := 60 * 60 * 24 * 7

  /** `Standup.mock`, given the fresh ids it draws and the current date. */
  function Mock(id: StandupId, attendeeIds: seq<AttendeeId>, meetingId: MeetingId, now: Date): (s: Standup)
    requires |attendeeIds| == 6
    requires forall i, j :: 0 <= i < j < 6 ==> attendeeIds[i] != attendeeIds[j]
    ensures WellFormed(s)
    ensures s.id == id && s.title == "Design" && s.theme == Orange && s.duration == Seconds(60)
    ensures |s.attendees| == 6 && |s.meetings| == 1
    ensures forall i :: 0 <= i < 6 ==> s.attendees[i].id == attendeeIds[i]
    ensures s.meetings[0].id == meetingId && s.meetings[0].transcript == LoremIpsum
    ensures s.meetings[0].date.secondsSinceReferenceDate == now.secondsSinceReferenceDate - SecondsPerWeek
  {
    Standup(
      id,
      [ Attendee(attendeeIds[0], "Blob"),
        Attendee(attendeeIds[1], "Blob Jr"),
        Attendee(attendeeIds[2], "Blob Sr"),
        Attendee(attendeeIds[3], "Blob Esq"),
        Attendee(attendeeIds[4], "Blob III"),
        Attendee(attendeeIds[5], "Blob I") ],
      Seconds(60),
      [ Meeting(meetingId, AddingTimeInterval(now, -SecondsPerWeek), LoremIpsum) ],
      Orange,
      "Design")
  }

  /** The mock's minute is shared out as ten seconds per attendee. */
  lemma MockDurationPerAttendee(id: StandupId, attendeeIds: seq<AttendeeId>, meetingId: MeetingId, now: Date)
    requires |attendeeIds| == 6
    requires forall i, j :: 0 <= i < j < 6 ==> attendeeIds[i] != attendeeIds[j]
    ensures DurationPerAttendee(Mock(id, attendeeIds, meetingId, now)) == Seconds(10)
  {
    DurationPerAttendeeExact(Mock(id, attendeeIds, meetingId, now), 60);
  }
}

=== FILE: offsets.dfy ===
/** Positional removal from an ordered collection, as done by
    `remove(atOffsets:)` with a Foundation `IndexSet`, and by
    `removeAll(where:)`, which removes the positions whose element matches. */
module Offsets {

  /** Every offset of an `IndexSet` addresses a position of a collection of
      length `n` (the standard library traps otherwise). */
  predicate InRange(indices: set<nat>, n: nat) {
    forall i :: i in indices ==> i < n
  }

  /** How many of the positions `0 .. n-1` are marked for removal. */
  function DeletedBefore(indices: set<nat>, n: nat): (c: nat)
    ensures c <= n
  {
    if n == 0 then 0 else DeletedBefore(indices, n - 1) + (if n - 1 in indices then 1 else 0)
  }

  /** The collection after removing the elements at `indices`; as long as
      the number of survivors. */
  function RemoveAt<T>(s: seq<T>, indices: set<nat>): (r: seq<T>)
    ensures |r| == |s| - DeletedBefore(indices, |s|)
  {
    if |s| == 0 then []
    else
      var k := |s| - 1;
      RemoveAt(s[..k], indices) + (if k in indices then [] else [s[k]])
  }

  /** Every survivor is kept, moved down by the number of removed positions
      before it. */
  lemma {:induction false} RemoveAtKeeps<T>(s: seq<T>, indices: set<nat>, i: nat)
    requires i < |s| && i !in indices
    ensures i - DeletedBefore(indices, i) < |RemoveAt(s, indices)|
    ensures RemoveAt(s, indices)[i - DeletedBefore(indices, i)] == s[i]
  {
    var last := |s| - 1;
    var front := RemoveAt(s[..last], indices);
    if i < last {
      RemoveAtKeeps(s[..last], indices, i);
      assert RemoveAt(s, indices)[i - DeletedBefore(indices, i)] == front[i - DeletedBefore(indices, i)];
    }
  }

  /** Conversely, every element of the result is a survivor, found at the
      position `RemoveAt` promises for it. Together with the contract of
      `RemoveAt` this pins the result down completely. */
  lemma {:induction false} RemoveAtSource<T>(s: seq<T>, indices: set<nat>, k: nat)
    requires k < |RemoveAt(s, indices)|
    ensures exists i :: 0 <= i < |s| && i !in indices && i - DeletedBefore(indices, i) == k
                        && RemoveAt(s, indices)[k] == s[i]
  {
    var last := |s| - 1;
    var front := RemoveAt(s[..last], indices);
    if k < |front| {
      RemoveAtSource(s[..last], indices, k);
      var i :| 0 <= i < last && i !in indices && i - DeletedBefore(indices, i) == k && front[k] == s[..last][i];
      assert RemoveAt(s, indices)[k] == s[i];
    } else {
      assert last !in indices && k == last - DeletedBefore(indices, last);
      assert RemoveAt(s, indices)[k] == s[last];
    }
  }

  /** For every position at once: survivors are kept in order. */
  lemma {:induction false} RemoveAtKeepsAll<T>(s: seq<T>, indices: set<nat>)
    ensures forall i {:trigger s[i]} :: 0 <= i < |s| && i !in indices ==>
              i - DeletedBefore(indices, i) < |RemoveAt(s, indices)| &&
              RemoveAt(s, indices)[i - DeletedBefore(indices, i)] == s[i]
  {
    var r := RemoveAt(s, indices);
    forall i | 0 <= i < |s| && i !in indices
      ensures i - DeletedBefore(indices, i) < |r| && r[i - DeletedBefore(indices, i)] == s[i] {
      RemoveAtKeeps(s, indices, i);
    }
  }

  /** Nothing but elements of the original is in the result. */
  lemma {:induction false} RemoveAtSubset<T>(s: seq<T>, indices: set<nat>)
    ensures forall k :: 0 <= k < |RemoveAt(s, indices)| ==> RemoveAt(s, indices)[k] in s
  {
    var r := RemoveAt(s, indices);
    forall k | 0 <= k < |r| ensures r[k] in s {
      RemoveAtSource(s, indices, k);
    }
  }

  /** The positions below `n` that are marked for removal. */
  function MarkedBelow(indices: set<nat>, n: nat): set<nat> {
    set i | i in indices && i < n
  }

  /** `DeletedBefore` counts exactly the marked positions below `n`. */
  lemma {:induction false} DeletedBeforeIsCardinality(indices: set<nat>, n: nat)
    ensures DeletedBefore(indices, n) == |MarkedBelow(indices, n)|
  {
    if n == 0 {
      assert MarkedBelow(indices, 0) == {};
    } else {
      DeletedBeforeIsCardinality(indices, n - 1);
      if n - 1 in indices {
        assert MarkedBelow(indices, n) == MarkedBelow(indices, n - 1) + {n - 1};
      } else {
        assert MarkedBelow(indices, n) == MarkedBelow(indices, n - 1);
      }
    }
  }

  /** With offsets that are all valid, exactly `|indices|` elements go. */
  lemma {:induction false} RemoveAtLength<T>(s: seq<T>, indices: set<nat>)
    requires InRange(indices, |s|)
    ensures |RemoveAt(s, indices)| == |s| - |indices|
  {
    DeletedBeforeIsCardinality(indices, |s|);
    assert MarkedBelow(indices, |s|) == indices;
  }

  /** The result is empty exactly when every position was removed. */
  lemma {:induction false} RemoveAtEmpty<T>(s: seq<T>, indices: set<nat>)
    ensures |RemoveAt(s, indices)| == 0 <==> forall i :: 0 <= i < |s| ==> i in indices
  {
    if |RemoveAt(s, indices)| == 0 {
      forall i | 0 <= i < |s| ensures i in indices {
        if i !in indices {
          RemoveAtKeeps(s, indices, i);
        }
      }
    } else {
      RemoveAtSource(s, indices, 0);
    }
  }

  /** Removing one valid offset splices the collection around it. */
  lemma {:induction false} RemoveAtSingle<T>(s: seq<T>, i: nat)
    requires i < |s|
    ensures RemoveAt(s, {i}) == s[..i] + s[i + 1..]
  {
    var last := |s| - 1;
    if i == last {
      assert RemoveAt(s[..last], {i}) == s[..last] by {
        NothingMarked(s[..last], {i});
      }
    } else {
      RemoveAtSingle(s[..last], i);
      assert s[..last][..i] == s[..i];
      assert s[..last][i + 1..] + [s[last]] == s[i + 1..];
    }
  }

  /** Offsets that all lie beyond the collection remove nothing. */
  lemma {:induction false} NothingMarked<T>(s: seq<T>, indices: set<nat>)
    requires forall i :: i in indices ==> i >= |s|
    ensures RemoveAt(s, indices) == s
  {
    if |s| > 0 {
      NothingMarked(s[..|s| - 1], indices);
    }
  }

  /** Nothing below `n` is marked, so nothing before `n` moves. */
  lemma {:induction false} DeletedBeforeNone(indices: set<nat>, n: nat)
    requires forall i :: i in indices ==> n <= i
    ensures DeletedBefore(indices, n) == 0
  {
    if n > 0 {
      DeletedBeforeNone(indices, n - 1);
    }
  }

  /** When the marked positions below `j` are exactly the run `f .. j-1`,
      `j - f` positions before `j` are removed. */
  lemma {:induction false} DeletedBeforeRun(indices: set<nat>, f: nat, j: nat)
    requires f <= j
    requires forall i :: i in indices ==> f <= i
    requires forall i :: f <= i < j ==> i in indices
    ensures DeletedBefore(indices, j) == j - f
  {
    if j == f {
      DeletedBeforeNone(indices, f);
    } else {
      DeletedBeforeRun(indices, f, j - 1);
    }
  }

  /** The positions `lo .. hi-1`. */
  function Interval(lo: nat, hi: nat): (s: set<nat>)
    ensures forall i :: i in s <==> lo <= i < hi
    ensures |s| == if lo <= hi then hi - lo else 0
    decreases hi - lo
  {
    if lo >= hi then {} else {lo} + Interval(lo + 1, hi)
  }

  /** All pairs of elements, in order, stand in the relation `ok`. */
  ghost predicate Pairwise<T>(s: seq<T>, ok: (T, T) -> bool) {
    forall i, j :: 0 <= i < j < |s| ==> ok(s[i], s[j])
  }

  /** Removal keeps every pairwise property (for instance unique ids). */
  lemma {:induction false} RemoveAtPairwise<T>(s: seq<T>, indices: set<nat>, ok: (T, T) -> bool)
    requires Pairwise(s, ok)
    ensures Pairwise(RemoveAt(s, indices), ok)
  {
    if |s| > 0 {
      var last := |s| - 1;
      var front := RemoveAt(s[..last], indices);
      RemoveAtPairwise(s[..last], indices, ok);
      if last !in indices {
        forall p | 0 <= p < |front| ensures ok(front[p], s[last]) {
          RemoveAtSource(s[..last], indices, p);
        }
      }
    }
  }

  /** The positions whose element satisfies `matches`, i.e. what
      `removeAll(where: matches)` removes. */
  function Matching<T>(s: seq<T>, matches: T -> bool): (m: set<nat>)
    ensures InRange(m, |s|)
    ensures forall i :: 0 <= i < |s| ==> (i in m <==> matches(s[i]))
  {
    set i: nat | i < |s| && matches(s[i])
  }

  /** Removing the matching positions leaves no element that matches. */
  lemma {:induction false} RemoveMatchingLeavesNone<T>(s: seq<T>, matches: T -> bool)
    ensures forall k :: 0 <= k < |RemoveAt(s, Matching(s, matches))| ==> !matches(RemoveAt(s, Matching(s, matches))[k])
  {
    var r := RemoveAt(s, Matching(s, matches));
    forall k | 0 <= k < |r| ensures !matches(r[k]) {
      RemoveAtSource(s, Matching(s, matches), k);
    }
  }

  /** `removeAll(where:)`: exactly one element fewer for each match, and no
      element of what is left matches. */
  function RemoveAll<T>(s: seq<T>, matches: T -> bool): (r: seq<T>)
    ensures |r| == |s| - |Matching(s, matches)|
    ensures forall k :: 0 <= k < |r| ==> !matches(r[k])
  {
    RemoveAtLength(s, Matching(s, matches));
    RemoveMatchingLeavesNone(s, matches);
    RemoveAt(s, Matching(s, matches))
  }

  /** What `removeAll(where:)` keeps: every element that does not match
      survives, in its original order (shifted down by the number of
      removed elements before it). */
  lemma {:induction false} RemoveAllKeeps<T>(s: seq<T>, matches: T -> bool)
    ensures forall i {:trigger s[i]} :: 0 <= i < |s| && !matches(s[i]) ==>
              i - DeletedBefore(Matching(s, matches), i) < |RemoveAll(s, matches)| &&
              RemoveAll(s, matches)[i - DeletedBefore(Matching(s, matches), i)] == s[i]
  {
    var r := RemoveAll(s, matches);
    forall i | 0 <= i < |s| && !matches(s[i])
      ensures i - DeletedBefore(Matching(s, matches), i) < |r| && r[i - DeletedBefore(Matching(s, matches), i)] == s[i]
    {
      RemoveAtKeeps(s, Matching(s, matches), i);
    }
  }

  /** The first (smallest) offset of a non-empty `IndexSet`, i.e. `first`. */
  function First(indices: set<nat>): (f: nat)
    requires indices != {}
    ensures f in indices && forall i :: i in indices ==> f <= i
  {
    var w :| w in indices;
    FirstFrom(indices, 0, w)
  }

  function FirstFrom(indices: set<nat>, lo: nat, w: nat): (f: nat)
    requires w in indices && lo <= w
    requires forall i :: i in indices ==> lo <= i
    ensures f in indices && forall i :: i in indices ==> f <= i
    decreases w - lo
  {
    if lo in indices then lo else FirstFrom(indices, lo + 1, w)
  }
}

=== FILE: optional.dfy ===
/** Swift's `Optional`, the carrier of "no value" results (a failed load,
    a trap turned into a value, an absent destination). */
module Optional {

  datatype Option<+T> = None | Some(value: T)
}

=== FILE: record_meeting.dfy ===
/** The meeting recorder (`RecordMeetingModel`) in this version of the app:
    its counters, the remaining time, the two button stubs, and the values
    the timer and footer views derive from it. */
module RecordMeeting {
  import opened Optional
  import opened Decimal
  import opened Models

  /** `secondsElapsed` and `speakerIndex` are Swift `Int`s; the standup is a
      `let` and never changes. */
  datatype RecordState = RecordState(secondsElapsed: int, speakerIndex: int, standup: Standup)

  /** `RecordMeetingModel(standup:)`. */
  function Init(standup: Standup): (r: RecordState)
    ensures r.secondsElapsed == 0 && r.speakerIndex == 0 && r.standup == standup
    ensures DurationRemaining(r) == standup.duration
  {
    RecordState(0, 0, standup)
  }

  /** `durationRemaining`: the configured length less the elapsed seconds. */
  function DurationRemaining(r: RecordState): (d: Duration)
    ensures Plus(Seconds(r.secondsElapsed), d) == r.standup.duration
  {
    Minus(r.standup.duration, Seconds(r.secondsElapsed))
  }

  /** `MeetingHeaderView.totalDuration`: elapsed plus remaining, which is
      the configured length however much time has passed. */
  function TotalDuration(r: RecordState): (d: Duration)
    ensures d == r.standup.duration
  {
    Plus(Seconds(r.secondsElapsed), DurationRemaining(r))
  }

  /** The progress bar's value, kept as the fraction it is computed from:
      zero unless the total is positive, else elapsed seconds over the
      total's whole seconds. */
  datatype Progress = NoProgress | Fraction(elapsed: int, totalSeconds: int)

  function MeetingProgress(r: RecordState): (p: Progress)
    ensures p.Fraction? <==> r.standup.duration.attoseconds > 0
    ensures p.Fraction? ==> p.elapsed == r.secondsElapsed && p.totalSeconds == WholeSeconds(r.standup.duration)
  {
    if TotalDuration(r).attoseconds > 0 then Fraction(r.secondsElapsed, WholeSeconds(TotalDuration(r)))
    else NoProgress
  }

  /** The bar fills from empty at the start to full once the elapsed
      seconds reach the configured length, and stays a fraction between 0
      and 1 in between. */
  lemma {:induction false} ProgressWithinBounds(r: RecordState)
    ensures r.standup.duration.attoseconds >= AttosecondsPerSecond && 0 <= r.secondsElapsed <= WholeSeconds(r.standup.duration) ==>
              var p := MeetingProgress(r);
              p.Fraction? && 0 < p.totalSeconds && 0 <= p.elapsed <= p.totalSeconds
    ensures r.standup.duration.attoseconds <= 0 ==> MeetingProgress(r) == NoProgress
  {
    if r.standup.duration.attoseconds >= AttosecondsPerSecond {
      assert WholeSeconds(r.standup.duration) >= 1;
    }
  }

  datatype RecordAction = NextTapped | EndMeetingTapped

  /** `nextButtonTapped` and `endMeetingButtonTapped` have empty bodies in
      this version: neither changes any state. */
  function Step(r: RecordState, a: RecordAction): (r': RecordState)
    ensures r' == r
  {
    match a
    case NextTapped => r
    case EndMeetingTapped => r
  }

  const NoOneName: string := "Someone"

  /** `MeetingTimerView.currentSpeakerName`. A negative index passes the
      guard and traps on the subscript, hence the requirement. */
  function CurrentSpeakerName(standup: Standup, speakerIndex: int): (name: string)
    requires speakerIndex >= 0
    ensures speakerIndex < |standup.attendees| ==> name == standup.attendees[speakerIndex].name
    ensures speakerIndex >= |standup.attendees| ==> name == NoOneName
  {
    if speakerIndex < |standup.attendees| then standup.attendees[speakerIndex].name else NoOneName
  }

  /** The attendee positions, among `0 .. n-1`, for which the timer view
      draws a speaker arc: those with `index < speakerIndex + 1`. */
  function ArcIndices(n: nat, speakerIndex: int): (arcs: seq<nat>)
    ensures forall k :: 0 <= k < |arcs| ==> arcs[k] < n && arcs[k] < speakerIndex + 1
  {
    if n == 0 then []
    else ArcIndices(n - 1, speakerIndex) + (if n - 1 < speakerIndex + 1 then [n - 1] else [])
  }

  function Min(a: int, b: int): int {
    if a <= b then a else b
  }

  /** Arcs are drawn for the first `min(speakerIndex + 1, n)` attendees,
      one each, in order (none for a negative index). */
  lemma {:induction false} ArcsDrawn(n: nat, speakerIndex: int)
    ensures |ArcIndices(n, speakerIndex)| == if speakerIndex + 1 <= 0 then 0 else Min(speakerIndex + 1, n)
    ensures forall k :: 0 <= k < |ArcIndices(n, speakerIndex)| ==> ArcIndices(n, speakerIndex)[k] == k
  {
    if n > 0 {
      ArcsDrawn(n - 1, speakerIndex);
    }
  }

  /** The timer names the speaking attendee exactly when an arc is drawn
      for every position up to and including the speaker's, and "Someone"
      otherwise. */
  lemma {:induction false} SpeakerNamedIffArcsReachSpeaker(standup: Standup, speakerIndex: nat)
    ensures |ArcIndices(|standup.attendees|, speakerIndex)| == speakerIndex + 1 ==>
              speakerIndex < |standup.attendees|
              && CurrentSpeakerName(standup, speakerIndex) == standup.attendees[speakerIndex].name
    ensures |ArcIndices(|standup.attendees|, speakerIndex)| != speakerIndex + 1 ==>
              CurrentSpeakerName(standup, speakerIndex) == NoOneName
  {
    ArcsDrawn(|standup.attendees|, speakerIndex);
  }

  const NoMoreSpeakers: string := "No more speakers."

  /** `MeetingFooterView.speakerText`: "Speaker i+1 of n" while someone is
      still to come after the current speaker, "No more speakers." from the
      last speaker on. */
  function SpeakerText(standup: Standup, speakerIndex: int): (text: string)
    ensures text == NoMoreSpeakers <==> speakerIndex >= |standup.attendees| - 1
    ensures speakerIndex < |standup.attendees| - 1 ==> |text| > 8 && text[..8] == "Speaker "
  {
    if speakerIndex < |standup.attendees| - 1 then
      var text := "Speaker " + Describe(speakerIndex + 1) + " of " + Describe(|standup.attendees|);
      assert text[0] == 'S' != NoMoreSpeakers[0];
      assert text[..8] == "Speaker ";
      text
    else NoMoreSpeakers
  }

  /** While someone is still to come after the current speaker, the
      footer's two numbers read back as the speaker's 1-based position and
      the attendee count. */
  lemma {:induction false} SpeakerTextAnnounces(standup: Standup, speakerIndex: int)
    ensures speakerIndex < |standup.attendees| - 1 ==>
              exists ordinal, count :: SpeakerText(standup, speakerIndex) == "Speaker " + ordinal + " of " + count
                && ordinal == Describe(speakerIndex + 1) && count == Describe(|standup.attendees|)
                && Parse(ordinal) == Some(speakerIndex + 1) && Parse(count) == Some(|standup.attendees|)
  {
    if speakerIndex < |standup.attendees| - 1 {
      DescribeRoundTrip(speakerIndex + 1);
      DescribeRoundTrip(|standup.attendees|);
    }
  }

  /** The mock standup opens on "Speaker 1 of 6". */
  lemma MockFirstSpeakerText(id: StandupId, attendeeIds: seq<AttendeeId>, meetingId: MeetingId, now: Date)
    requires |attendeeIds| == 6
    requires forall i, j :: 0 <= i < j < 6 ==> attendeeIds[i] != attendeeIds[j]
    ensures SpeakerText(Mock(id, attendeeIds, meetingId, now), 0) == "Speaker 1 of 6"
    ensures CurrentSpeakerName(Mock(id, attendeeIds, meetingId, now), 0) == "Blob"
  {
    assert Describe(1) == "1" && Describe(6) == "6";
  }
}

=== FILE: standup_detail.dfy ===
/** The detail controller (`StandupDetailModel`): one standup and at most one
    presented child, the destination. */
module StandupDetail {
  import opened Optional
  import opened Offsets
  import opened Models
  import EditStandup
  import RecordMeeting

  datatype AlertAction = ConfirmDeletion

  /** The confirmation alert's texts; its destructive button sends
      `ConfirmDeletion`, the other one cancels. */
  datatype AlertState = AlertState(title: string, message: string, confirmLabel: string, cancelLabel: string)

  const DeleteAlert: AlertState :=
    AlertState("Delete?", "Are you sure you want to delete this meeting?", "Yes", "Nevermind")

  /** One sum type, so at most one child is ever presented. */
  datatype Destination =
    | Alert(alert: AlertState)
    | Edit(edit: EditStandup.EditState)
    | MeetingView(meeting: Meeting)
    | Record(record: RecordMeeting.RecordState)

  datatype DetailState = DetailState(destination: Option<Destination>, standup: Standup)

  /** A step's new state, and whether it invoked `onConfirmDeletion`, the
      callback through which the owner learns that deletion was confirmed. */
  datatype Outcome = Outcome(state: DetailState, deletionRequested: bool)

  /** `StandupDetailModel(standup:)`: nothing presented. */
  function Init(standup: Standup): (d: DetailState)
    ensures d.destination == None && d.standup == standup
    ensures WellFormed(standup) ==> Inv(d)
  {
    DetailState(None, standup)
  }

  /** What holds of a detail screen: the identified collections keep unique
      ids, and an open editor works on a copy of this very standup. */
  predicate Inv(d: DetailState) {
    && WellFormed(d.standup)
    && (d.destination.Some? && d.destination.value.Edit? ==>
          EditStandup.Inv(d.destination.value.edit) && d.destination.value.edit.standup.id == d.standup.id)
  }

  /** `deleteMeetings(atOffsets:)`: the swiped meetings go, the others keep
      their order, and nothing else changes. */
  function DeleteMeetings(d: DetailState, indices: set<nat>): (r: DetailState)
    requires InRange(indices, |d.standup.meetings|)
    ensures |r.standup.meetings| == |d.standup.meetings| - |indices|
    ensures r.standup == d.standup.(meetings := r.standup.meetings) && r.destination == d.destination
    ensures Inv(d) ==> Inv(r)
  {
    var meetings := d.standup.meetings;
    RemoveAtLength(meetings, indices);
    RemoveMeetingsUnique(meetings, indices);
    var kept := RemoveAt(meetings, indices);
    d.(standup := d.standup.(meetings := kept))
  }

  /** The meetings that were not swiped all stay, in their order, each
      moved up by the number of swiped meetings above it. */
  lemma {:induction false} DeleteMeetingsKeepsOthers(d: DetailState, indices: set<nat>)
    requires InRange(indices, |d.standup.meetings|)
    ensures DeleteMeetings(d, indices).standup.meetings == RemoveAt(d.standup.meetings, indices)
    ensures forall i {:trigger d.standup.meetings[i]} :: 0 <= i < |d.standup.meetings| && i !in indices ==>
              i - DeletedBefore(indices, i) < |RemoveAt(d.standup.meetings, indices)| &&
              RemoveAt(d.standup.meetings, indices)[i - DeletedBefore(indices, i)] == d.standup.meetings[i]
  {
    var meetings := d.standup.meetings;
    forall i | 0 <= i < |meetings| && i !in indices
      ensures i - DeletedBefore(indices, i) < |RemoveAt(meetings, indices)|
              && RemoveAt(meetings, indices)[i - DeletedBefore(indices, i)] == meetings[i]
    {
      RemoveAtKeeps(meetings, indices, i);
    }
    assert DeleteMeetings(d, indices).standup.meetings == RemoveAt(meetings, indices);
  }

  /** `meetingTapped(_:)`: presents that meeting. */
  function MeetingTapped(d: DetailState, meeting: Meeting): (r: DetailState)
    ensures r.destination == Some(MeetingView(meeting)) && r.standup == d.standup
  {
    d.(destination := Some(MeetingView(meeting)))
  }

  /** `deleteButtonTapped`: asks for confirmation first; deletes nothing. */
  function DeleteButtonTapped(d: DetailState): (r: DetailState)
    ensures r.destination == Some(Alert(DeleteAlert)) && r.standup == d.standup
  {
    d.(destination := Some(Alert(DeleteAlert)))
  }

  /** `alertButtonTapped(_:)`: confirming only invokes `onConfirmDeletion`;
      neither the standup nor the destination changes here. */
  function AlertButtonTapped(d: DetailState, action: AlertAction): (r: Outcome)
    ensures r.state == d && r.deletionRequested
  {
    match action
    case ConfirmDeletion => Outcome(d, true)
  }

  /** `editButtonTapped`: opens the editor on a copy of the standup (the
      copy gets a blank attendee if it has none); the canonical standup is
      untouched until editing is done. */
  function EditButtonTapped(d: DetailState, placeholderId: AttendeeId): (r: DetailState)
    ensures r.standup == d.standup
    ensures r.destination.Some? && r.destination.value.Edit?
    ensures var e := r.destination.value.edit;
            e.focus == EditStandup.DefaultFocus && e.standup.id == d.standup.id
            && (|d.standup.attendees| >= 1 ==> e.standup == d.standup)
            && (|d.standup.attendees| == 0 ==> e.standup == d.standup.(attendees := [EditStandup.Blank(placeholderId)]))
    ensures WellFormed(d.standup) ==> Inv(r)
  {
    d.(destination := Some(Edit(EditStandup.Init(EditStandup.DefaultFocus, d.standup, placeholderId))))
  }

  /** `cancelEditButtonTapped`: drops the edited copy. */
  function CancelEditButtonTapped(d: DetailState): (r: DetailState)
    ensures r.destination == None && r.standup == d.standup
  {
    d.(destination := None)
  }

  /** `doneEditingButtonTapped`: always dismisses; the edited copy replaces
      the standup only if the editor was what was presented. */
  function DoneEditingButtonTapped(d: DetailState): (r: DetailState)
    ensures r.destination == None
    ensures d.destination.Some? && d.destination.value.Edit? ==> r.standup == d.destination.value.edit.standup
    ensures !(d.destination.Some? && d.destination.value.Edit?) ==> r.standup == d.standup
    ensures Inv(d) ==> Inv(r) && r.standup.id == d.standup.id
  {
    match d.destination
    case Some(Edit(e)) => DetailState(None, e.standup)
    case _ => DetailState(None, d.standup)
  }

  /** `startMeetingButtonTapped`: opens a recorder on the current standup. */
  function StartMeetingButtonTapped(d: DetailState): (r: DetailState)
    ensures r.standup == d.standup
    ensures r.destination.Some? && r.destination.value.Record?
    ensures var rec := r.destination.value.record;
            rec.standup == d.standup && rec.secondsElapsed == 0 && rec.speakerIndex == 0
  {
    d.(destination := Some(Record(RecordMeeting.Init(d.standup))))
  }

  /** The handler `bind()` installs on a presented recorder: when the
      meeting finishes with `transcript`, the recorder is dismissed and a
      meeting with a fresh id, the current date and that transcript goes in
      front of the earlier ones, which keep their order. */
  function MeetingFinished(d: DetailState, transcript: string, meetingId: MeetingId, now: Date): (r: DetailState)
    requires !HasMeeting(d.standup.meetings, meetingId)
    ensures r.destination == None
    ensures |r.standup.meetings| == |d.standup.meetings| + 1
    ensures r.standup.meetings[0] == Meeting(meetingId, now, transcript)
    ensures r.standup.meetings[1..] == d.standup.meetings
    ensures r.standup == d.standup.(meetings := r.standup.meetings)
    ensures Inv(d) ==> Inv(r)
  {
    DetailState(None, d.standup.(meetings := [Meeting(meetingId, now, transcript)] + d.standup.meetings))
  }

  /** What can happen on a detail screen: its buttons, actions of the
      presented editor or recorder, and the recorder finishing. */
  datatype DetailAction =
    | DeleteMeetingsSwiped(indices: set<nat>)
    | MeetingRowTapped(meeting: Meeting)
    | DeleteTapped
    | AlertButton(action: AlertAction)
    | EditTapped(placeholderId: AttendeeId)
    | CancelEditTapped
    | DoneEditingTapped
    | StartMeetingTapped
    | EditorAction(editAction: EditStandup.EditAction)
    | RecorderAction(recordAction: RecordMeeting.RecordAction)
    | RecorderFinished(transcript: string, meetingId: MeetingId, now: Date)

  predicate Enabled(d: DetailState, a: DetailAction) {
    match a
    case DeleteMeetingsSwiped(indices) => InRange(indices, |d.standup.meetings|)
    case MeetingRowTapped(meeting) => meeting in d.standup.meetings
    case AlertButton(_) => d.destination == Some(Alert(DeleteAlert))
    case EditorAction(ea) =>
      d.destination.Some? && d.destination.value.Edit? && EditStandup.Enabled(d.destination.value.edit, ea)
    case RecorderAction(_) => d.destination.Some? && d.destination.value.Record?
    case RecorderFinished(_, meetingId, _) =>
      d.destination.Some? && d.destination.value.Record? && !HasMeeting(d.standup.meetings, meetingId)
    case _ => true
  }

  /** The standup has at least one attendee. */
  predicate HasAttendees(d: DetailState) {
    |d.standup.attendees| >= 1
  }

  /** One step of the detail screen. Every step keeps the invariant and the
      standup's id; only confirming deletion raises the callback; and a
      standup with attendees keeps at least one. */
  function Step(d: DetailState, a: DetailAction): (r: Outcome)
    requires Enabled(d, a)
    ensures Inv(d) ==> Inv(r.state)
    ensures Inv(d) ==> r.state.standup.id == d.standup.id
    ensures r.deletionRequested <==> a.AlertButton?
    ensures Inv(d) && HasAttendees(d) ==> HasAttendees(r.state)
  {
    match a
    case DeleteMeetingsSwiped(indices) => Outcome(DeleteMeetings(d, indices), false)
    case MeetingRowTapped(meeting) => Outcome(MeetingTapped(d, meeting), false)
    case DeleteTapped => Outcome(DeleteButtonTapped(d), false)
    case AlertButton(action) => AlertButtonTapped(d, action)
    case EditTapped(placeholderId) => Outcome(EditButtonTapped(d, placeholderId), false)
    case CancelEditTapped => Outcome(CancelEditButtonTapped(d), false)
    case DoneEditingTapped => Outcome(DoneEditingButtonTapped(d), false)
    case StartMeetingTapped => Outcome(StartMeetingButtonTapped(d), false)
    case EditorAction(ea) =>
      var e := d.destination.value.edit;
      Outcome(d.(destination := Some(Edit(EditStandup.Step(e, ea)))), false)
    case RecorderAction(ra) =>
      var rec := d.destination.value.record;
      Outcome(d.(destination := Some(Record(RecordMeeting.Step(rec, ra)))), false)
    case RecorderFinished(transcript, meetingId, now) =>
      Outcome(MeetingFinished(d, transcript, meetingId, now), false)
  }
}

=== FILE: standups_list.dfy ===
/** The list controller (`StandupsListModel`): the ordered, id-unique
    collection of standups and at most one presented child, the destination. */
module StandupsList {
  import opened Optional
  import opened Offsets
  import opened Models
  import EditStandup
  import StandupDetail

  /** One sum type, so the add sheet and a detail screen are never both
      presented. */
  datatype Destination =
    | Add(edit: EditStandup.EditState)
    | Detail(detail: StandupDetail.DetailState)

  datatype ListState = ListState(destination: Option<Destination>, standups: seq<Standup>)

  predicate UniqueStandupIds(standups: seq<Standup>) {
    forall i, j :: 0 <= i < j < |standups| ==> standups[i].id != standups[j].id
  }

  predicate HasStandup(standups: seq<Standup>, id: StandupId) {
    exists i :: 0 <= i < |standups| && standups[i].id == id
  }

  predicate AllWellFormed(standups: seq<Standup>) {
    forall i :: 0 <= i < |standups| ==> WellFormed(standups[i])
  }

  /** Where the standup with `id` sits, if anywhere (the first such
      position; with unique ids the only one). */
  function IndexOfId(standups: seq<Standup>, id: StandupId): (r: Option<nat>)
    ensures r.Some? ==> r.value < |standups| && standups[r.value].id == id
                        && forall j :: 0 <= j < r.value ==> standups[j].id != id
    ensures r.None? <==> !HasStandup(standups, id)
  {
    if |standups| == 0 then None
    else if standups[0].id == id then Some(0)
    else
      match IndexOfId(standups[1..], id)
      case None => None
      case Some(k) => Some(k + 1)
  }

  /** `remove(id:)`: the standup with that id leaves; the others keep their
      order. */
  function RemoveById(standups: seq<Standup>, id: StandupId): (r: seq<Standup>)
    ensures UniqueStandupIds(standups) ==> UniqueStandupIds(r) && !HasStandup(r, id)
    ensures forall k :: 0 <= k < |r| ==> r[k] in standups
    ensures HasStandup(standups, id) ==> |r| == |standups| - 1
    ensures !HasStandup(standups, id) ==> r == standups
  {
    match IndexOfId(standups, id)
    case None => standups
    case Some(i) => standups[..i] + standups[i + 1..]
  }

  /** With unique ids, `remove(id:)` is `removeAll { $0.id == id }`, the
      variant that the code keeps commented out. */
  lemma {:induction false} RemoveByIdIsRemoveAll(standups: seq<Standup>, id: StandupId)
    requires UniqueStandupIds(standups)
    ensures RemoveById(standups, id) == RemoveAll(standups, (s: Standup) => s.id == id)
  {
    var matching := Matching(standups, (s: Standup) => s.id == id);
    match IndexOfId(standups, id)
    case None =>
      assert matching == {};
      NothingMarked(standups, {});
    case Some(i) =>
      assert matching == {i};
      RemoveAtSingle(standups, i);
  }

  /** `standups[id: x.id] = x`: replaces the standup with the same id in
      place, or appends `x` when there is none; nothing else changes. */
  function SetById(standups: seq<Standup>, x: Standup): (r: seq<Standup>)
    ensures x in r
    ensures forall k :: 0 <= k < |r| ==> r[k] == x || r[k] in standups
    ensures UniqueStandupIds(standups) ==> UniqueStandupIds(r)
    ensures UniqueStandupIds(standups) && HasStandup(standups, x.id) ==>
              |r| == |standups| && forall i :: 0 <= i < |r| ==> r[i] == if standups[i].id == x.id then x else standups[i]
    ensures !HasStandup(standups, x.id) ==> r == standups + [x]
  {
    match IndexOfId(standups, x.id)
    case None => standups + [x]
    case Some(i) => assert standups[i := x][i] == x; standups[i := x]
  }

  /** Syncing a standup the list already holds changes nothing. */
  lemma {:induction false} SetByIdPresent(standups: seq<Standup>, x: Standup)
    requires UniqueStandupIds(standups) && x in standups
    ensures SetById(standups, x) == standups
  {
    var i :| 0 <= i < |standups| && standups[i] == x;
    assert HasStandup(standups, x.id);
  }

  /** `append(_:)` on an identified array: a no-op when the id is taken. */
  function Append(standups: seq<Standup>, x: Standup): (r: seq<Standup>)
    ensures UniqueStandupIds(standups) ==> UniqueStandupIds(r)
    ensures !HasStandup(standups, x.id) ==> r == standups + [x]
    ensures HasStandup(standups, x.id) ==> r == standups
  {
    if IndexOfId(standups, x.id).Some? then standups else standups + [x]
  }

  /** What decoding the stored document gives: `stored` is the parsed JSON
      array, `None` when reading or parsing failed. Decoding an identified
      array rejects duplicate ids, and any failure leaves the list empty. */
  function Decode(stored: Option<seq<Standup>>): (r: seq<Standup>)
    ensures UniqueStandupIds(r) && AllWellFormed(r)
    ensures stored.None? ==> r == []
    ensures stored.Some? && UniqueStandupIds(stored.value) && AllWellFormed(stored.value) ==> r == stored.value
    ensures stored.Some? && !(UniqueStandupIds(stored.value) && AllWellFormed(stored.value)) ==> r == []
  {
    match stored
    case None => []
    case Some(standups) => if UniqueStandupIds(standups) && AllWellFormed(standups) then standups else []
  }

  /** `StandupsListModel()`: nothing presented, the stored standups loaded. */
  function Init(stored: Option<seq<Standup>>): (l: ListState)
    ensures l.destination == None && l.standups == Decode(stored)
    ensures Inv(l)
  {
    ListState(None, Decode(stored))
  }

  /** `addStandupButtonTapped`: opens the add sheet on a new standup with a
      fresh id (and, through the editor's `init`, one blank attendee). */
  function AddStandupButtonTapped(l: ListState, id: StandupId, placeholderId: AttendeeId): (r: ListState)
    ensures r.standups == l.standups
    ensures r.destination.Some? && r.destination.value.Add?
    ensures var e := r.destination.value.edit;
            e.focus == EditStandup.DefaultFocus
            && e.standup == NewStandup(id).(attendees := [EditStandup.Blank(placeholderId)])
  {
    l.(destination := Some(Add(EditStandup.Init(EditStandup.DefaultFocus, NewStandup(id), placeholderId))))
  }

  /** `dismissAddStandupButtonTapped`: closes the sheet and adds nothing. */
  function DismissAddStandupButtonTapped(l: ListState): (r: ListState)
    ensures r.destination == None && r.standups == l.standups
  {
    l.(destination := None)
  }

  /** `Character.isWhitespace`, per Unicode scalar: the White_Space
      property. */
  predicate IsWhitespace(c: char)
    ensures (c as int) < 0x80 ==> (IsWhitespace(c) <==> c == ' ' || '\t' <= c <= '\r')
    ensures '!' <= c <= '~' ==> !IsWhitespace(c)
  {
    || ('\U{0009}' <= c <= '\U{000D}')
    || c == '\U{0020}' || c == '\U{0085}' || c == '\U{00A0}' || c == '\U{1680}'
    || ('\U{2000}' <= c <= '\U{200A}')
    || c == '\U{2028}' || c == '\U{2029}' || c == '\U{202F}' || c == '\U{205F}' || c == '\U{3000}'
  }

  /** `name.allSatisfy(\.isWhitespace)`: true of the empty name too. */
  predicate IsBlankName(a: Attendee)
    ensures a.name == "" ==> IsBlankName(a)
    ensures (exists k :: 0 <= k < |a.name| && '!' <= a.name[k] <= '~') ==> !IsBlankName(a)
  {
    forall k :: 0 <= k < |a.name| ==> IsWhitespace(a.name[k])
  }

  /** The attendees an added standup keeps: the ones with a name that is
      not all whitespace, or one blank placeholder if there are none. */
  function ConfirmedAttendees(attendees: seq<Attendee>, placeholderId: AttendeeId): (r: seq<Attendee>)
    ensures |r| >= 1
    ensures r == [EditStandup.Blank(placeholderId)] || forall k :: 0 <= k < |r| ==> !IsBlankName(r[k])
    ensures UniqueAttendeeIds(attendees) ==> UniqueAttendeeIds(r)
    ensures (exists i :: 0 <= i < |attendees| && !IsBlankName(attendees[i])) ==>
              |r| == |attendees| - |Matching(attendees, IsBlankName)|
  {
    RemoveAllKeeps(attendees, IsBlankName);
    RemoveAttendeesUnique(attendees, Matching(attendees, IsBlankName));
    var kept := RemoveAll(attendees, IsBlankName);
    if |kept| == 0 then [EditStandup.Blank(placeholderId)] else kept
  }

  /** Every attendee with a real name is kept, in the original order. */
  lemma {:induction false} ConfirmedAttendeesKeepNamed(attendees: seq<Attendee>, placeholderId: AttendeeId)
    ensures var r := ConfirmedAttendees(attendees, placeholderId);
            var blanks := Matching(attendees, IsBlankName);
            forall i {:trigger attendees[i]} :: 0 <= i < |attendees| && !IsBlankName(attendees[i]) ==>
              i - DeletedBefore(blanks, i) < |r| && r[i - DeletedBefore(blanks, i)] == attendees[i]
  {
    RemoveAllKeeps(attendees, IsBlankName);
  }

  /** The placeholder stands in exactly when no attendee has a real name. */
  lemma {:induction false} ConfirmedAttendeesPlaceholder(attendees: seq<Attendee>, placeholderId: AttendeeId)
    ensures (forall i :: 0 <= i < |attendees| ==> IsBlankName(attendees[i])) <==>
              ConfirmedAttendees(attendees, placeholderId) == [EditStandup.Blank(placeholderId)]
  {
    var blanks := Matching(attendees, IsBlankName);
    var kept := RemoveAll(attendees, IsBlankName);
    RemoveAtEmpty(attendees, blanks);
    RemoveAllKeeps(attendees, IsBlankName);
    if |kept| != 0 {
      assert !IsBlankName(kept[0]);
      assert IsBlankName(EditStandup.Blank(placeholderId));
    }
  }

  /** `confirmAddStandupButtonTapped`: always closes the sheet; if the add
      sheet was what was presented, its standup joins the end of the list
      with blank-named attendees stripped (or a lone placeholder). */
  function ConfirmAddStandupButtonTapped(l: ListState, placeholderId: AttendeeId): (r: ListState)
    ensures r.destination == None
    ensures !(l.destination.Some? && l.destination.value.Add?) ==> r.standups == l.standups
    ensures l.destination.Some? && l.destination.value.Add? && !HasStandup(l.standups, l.destination.value.edit.standup.id) ==>
              var added := l.destination.value.edit.standup;
              |r.standups| == |l.standups| + 1 && r.standups[..|l.standups|] == l.standups
              && r.standups[|l.standups|] == added.(attendees := ConfirmedAttendees(added.attendees, placeholderId))
              && |r.standups[|l.standups|].attendees| >= 1
    ensures UniqueStandupIds(l.standups) ==> UniqueStandupIds(r.standups)
  {
    match l.destination
    case Some(Add(e)) =>
      var standup := e.standup.(attendees := ConfirmedAttendees(e.standup.attendees, placeholderId));
      ListState(None, Append(l.standups, standup))
    case _ => l.(destination := None)
  }

  /** `standupTapped(standup:)`: presents a detail screen on `s`; binding it
      syncs `s` into the list straight away. */
  function StandupTapped(l: ListState, s: Standup): (r: ListState)
    ensures r.destination == Some(Detail(StandupDetail.Init(s)))
    ensures r.standups == SetById(l.standups, s)
  {
    ListState(Some(Detail(StandupDetail.Init(s))), SetById(l.standups, s))
  }

  /** An action on the presented detail screen, with what `bind()` wires to
      it: confirming deletion removes the standup by id and dismisses the
      screen; any other step syncs the detail's standup back into the list. */
  function DetailChanged(l: ListState, a: StandupDetail.DetailAction): (r: ListState)
    requires l.destination.Some? && l.destination.value.Detail?
    requires StandupDetail.Enabled(l.destination.value.detail, a)
    ensures var d := l.destination.value.detail;
            if a.AlertButton? then r == ListState(None, RemoveById(l.standups, d.standup.id))
            else r.destination == Some(Detail(StandupDetail.Step(d, a).state))
                 && r.standups == SetById(l.standups, StandupDetail.Step(d, a).state.standup)
  {
    var d := l.destination.value.detail;
    var outcome := StandupDetail.Step(d, a);
    if outcome.deletionRequested then ListState(None, RemoveById(l.standups, d.standup.id))
    else ListState(Some(Detail(outcome.state)), SetById(l.standups, outcome.state.standup))
  }

  /** An action on the add sheet's form. */
  function AddChanged(l: ListState, a: EditStandup.EditAction): (r: ListState)
    requires l.destination.Some? && l.destination.value.Add?
    requires EditStandup.Enabled(l.destination.value.edit, a)
    ensures r.standups == l.standups
    ensures r.destination == Some(Add(EditStandup.Step(l.destination.value.edit, a)))
  {
    l.(destination := Some(Add(EditStandup.Step(l.destination.value.edit, a))))
  }

  datatype ListAction =
    | AddStandupTapped(id: StandupId, placeholderId: AttendeeId)
    | DismissAddTapped
    | ConfirmAddTapped(placeholderId: AttendeeId)
    | StandupRowTapped(standup: Standup)
    | AddSheetAction(editAction: EditStandup.EditAction)
    | DetailScreenAction(detailAction: StandupDetail.DetailAction)

  /** An action the app can send in state `l`: a new standup's UUID is
      fresh, a tapped row is in the list, and child actions need that child
      presented. */
  predicate Enabled(l: ListState, a: ListAction) {
    match a
    case AddStandupTapped(id, _) => !HasStandup(l.standups, id)
    case StandupRowTapped(s) => s in l.standups
    case AddSheetAction(ea) =>
      l.destination.Some? && l.destination.value.Add? && EditStandup.Enabled(l.destination.value.edit, ea)
    case DetailScreenAction(da) =>
      l.destination.Some? && l.destination.value.Detail? && StandupDetail.Enabled(l.destination.value.detail, da)
    case _ => true
  }

  /** One step of the list screen. Only confirming the add sheet and what
      the detail screen does (syncing, deleting) touch the list; dismissing
      or confirming the sheet closes it. */
  function Step(l: ListState, a: ListAction): (r: ListState)
    requires Enabled(l, a)
    ensures a.AddStandupTapped? || a.DismissAddTapped? || a.AddSheetAction? ==> r.standups == l.standups
    ensures a.DismissAddTapped? || a.ConfirmAddTapped? ==> r.destination == None
    ensures a.StandupRowTapped? && UniqueStandupIds(l.standups) ==> r.standups == l.standups
  {
    match a
    case AddStandupTapped(id, placeholderId) => AddStandupButtonTapped(l, id, placeholderId)
    case DismissAddTapped => DismissAddStandupButtonTapped(l)
    case ConfirmAddTapped(placeholderId) => ConfirmAddStandupButtonTapped(l, placeholderId)
    case StandupRowTapped(s) =>
      if UniqueStandupIds(l.standups) then SetByIdPresent(l.standups, s); StandupTapped(l, s)
      else StandupTapped(l, s)
    case AddSheetAction(ea) => AddChanged(l, ea)
    case DetailScreenAction(da) => DetailChanged(l, da)
  }

  /** What holds of the list screen: standup ids are unique, every
      identified collection is, the add sheet edits a standup whose id is
      not yet taken, and a presented detail screen's standup is the one the
      list holds. */
  predicate Inv(l: ListState) {
    && UniqueStandupIds(l.standups)
    && AllWellFormed(l.standups)
    && match l.destination
       case None => true
       case Some(Add(e)) => EditStandup.Inv(e) && !HasStandup(l.standups, e.standup.id)
       case Some(Detail(d)) => StandupDetail.Inv(d) && d.standup in l.standups
  }

  /** Every standup, in the list and on a presented detail screen, has at
      least one attendee. */
  predicate AllHaveAttendees(l: ListState) {
    && (forall i :: 0 <= i < |l.standups| ==> |l.standups[i].attendees| >= 1)
    && (l.destination.Some? && l.destination.value.Detail? ==> StandupDetail.HasAttendees(l.destination.value.detail))
  }

  /** A fresh launch satisfies the invariant, and one whose load failed
      starts with an empty list. */
  lemma InitInv(stored: Option<seq<Standup>>)
    ensures Inv(Init(stored))
    ensures stored.None? ==> Init(stored).standups == [] && AllHaveAttendees(Init(stored))
  {
  }

  lemma {:induction false} AllWellFormedSetById(standups: seq<Standup>, x: Standup)
    requires AllWellFormed(standups) && WellFormed(x)
    ensures AllWellFormed(SetById(standups, x))
  {
    var r := SetById(standups, x);
    forall k | 0 <= k < |r| ensures WellFormed(r[k]) {
      assert r[k] == x || r[k] in standups;
    }
  }

  /** Every step keeps the invariant, and keeps every standup's attendee
      list non-empty once it is. */
  lemma {:induction false} StepKeepsInv(l: ListState, a: ListAction)
    requires Inv(l) && Enabled(l, a)
    ensures Inv(Step(l, a))
    ensures AllHaveAttendees(l) ==> AllHaveAttendees(Step(l, a))
  {
    match a
    case AddStandupTapped(id, placeholderId) =>
    case DismissAddTapped =>
    case ConfirmAddTapped(placeholderId) =>
      ConfirmKeepsInv(l, placeholderId);
    case StandupRowTapped(s) =>
      SetByIdPresent(l.standups, s);
    case AddSheetAction(ea) =>
    case DetailScreenAction(da) =>
      DetailKeepsInv(l, da);
  }

  /** Confirming the add sheet keeps the invariant. */
  lemma {:induction false} ConfirmKeepsInv(l: ListState, placeholderId: AttendeeId)
    requires Inv(l)
    ensures Inv(ConfirmAddStandupButtonTapped(l, placeholderId))
    ensures AllHaveAttendees(l) ==> AllHaveAttendees(ConfirmAddStandupButtonTapped(l, placeholderId))
  {
    var r := ConfirmAddStandupButtonTapped(l, placeholderId);
    if l.destination.Some? && l.destination.value.Add? {
      var e := l.destination.value.edit;
      var added := e.standup.(attendees := ConfirmedAttendees(e.standup.attendees, placeholderId));
      assert r.standups == l.standups + [added];
      assert WellFormed(added);
    }
  }

  /** A detail-screen action, with its sync or deletion, keeps the
      invariant. */
  lemma {:induction false} DetailKeepsInv(l: ListState, da: StandupDetail.DetailAction)
    requires Inv(l) && Enabled(l, DetailScreenAction(da))
    ensures Inv(DetailChanged(l, da))
    ensures AllHaveAttendees(l) ==> AllHaveAttendees(DetailChanged(l, da))
  {
    var d := l.destination.value.detail;
    var outcome := StandupDetail.Step(d, da);
    if outcome.deletionRequested {
      var rest := RemoveById(l.standups, d.standup.id);
      forall k | 0 <= k < |rest| ensures WellFormed(rest[k]) && (AllHaveAttendees(l) ==> |rest[k].attendees| >= 1) {
        assert rest[k] in l.standups;
      }
    } else {
      AllWellFormedSetById(l.standups, outcome.state.standup);
      var synced := SetById(l.standups, outcome.state.standup);
      if AllHaveAttendees(l) {
        forall k | 0 <= k < |synced| ensures |synced[k].attendees| >= 1 {
          assert synced[k] == outcome.state.standup || synced[k] in l.standups;
        }
      }
    }
  }

  /** From an empty list, adding a standup and confirming it without naming
      anyone gives a list of one standup, with a single blank attendee. */
  lemma AddThenConfirmFromEmpty(id: StandupId, placeholderId: AttendeeId, secondPlaceholderId: AttendeeId)
    ensures var l1 := Step(Init(None), AddStandupTapped(id, placeholderId));
            var l2 := Step(l1, ConfirmAddTapped(secondPlaceholderId));
            |l2.standups| == 1 && l2.destination == None && l2.standups[0].id == id
            && l2.standups[0].attendees == [EditStandup.Blank(secondPlaceholderId)]
  {
    var l1 := Step(Init(None), AddStandupTapped(id, placeholderId));
    var e := l1.destination.value.edit;
    assert IsBlankName(e.standup.attendees[0]);
    ConfirmedAttendeesPlaceholder(e.standup.attendees, secondPlaceholderId);
  }

  /** Confirming deletion on the detail screen of a list's only standup
      empties the list and dismisses the screen in the same step. */
  lemma DeleteOnlyStandup(s: Standup)
    requires WellFormed(s)
    ensures var l1 := Step(ListState(None, [s]), StandupRowTapped(s));
            var l2 := Step(l1, DetailScreenAction(StandupDetail.DeleteTapped));
            var l3 := Step(l2, DetailScreenAction(StandupDetail.AlertButton(StandupDetail.ConfirmDeletion)));
            l3.standups == [] && l3.destination == None
  {
    SetByIdPresent([s], s);
    assert HasStandup([s], s.id);
  }

  /** On a one-standup list, syncing a standup with the same id replaces it. */
  lemma SyncSingleton(x: Standup, y: Standup)
    requires x.id == y.id
    ensures SetById([x], y) == [y]
  {
    assert [x][0].id == y.id;
  }

  /** Renaming a standup in its editor and tapping done renames it on the
      detail screen and in the list. */
  lemma RenameThroughEditor(s: Standup, placeholderId: AttendeeId, title: string)
    requires WellFormed(s)
    ensures var l1 := Step(ListState(None, [s]), StandupRowTapped(s));
            var l2 := Step(l1, DetailScreenAction(StandupDetail.EditTapped(placeholderId)));
            var l3 := Step(l2, DetailScreenAction(StandupDetail.EditorAction(EditStandup.TitleChanged(title))));
            var l4 := Step(l3, DetailScreenAction(StandupDetail.DoneEditingTapped));
            |l4.standups| == 1 && l4.standups[0].title == title && l4.standups[0].id == s.id
            && l4.destination.Some? && l4.destination.value.Detail?
            && l4.destination.value.detail.standup.title == title
  {
    SyncSingleton(s, s);
    var l1 := Step(ListState(None, [s]), StandupRowTapped(s));
    var d2 := StandupDetail.EditButtonTapped(StandupDetail.Init(s), placeholderId);
    var l2 := Step(l1, DetailScreenAction(StandupDetail.EditTapped(placeholderId)));
    var e3 := EditStandup.Step(d2.destination.value.edit, EditStandup.TitleChanged(title));
    var l3 := Step(l2, DetailScreenAction(StandupDetail.EditorAction(EditStandup.TitleChanged(title))));
    SyncSingleton(s, e3.standup);
  }

  /** A finished recording shows up, newest first, in the list's copy of
      the standup. */
  lemma FinishedMeetingReachesList(s: Standup, transcript: string, meetingId: MeetingId, now: Date)
    requires WellFormed(s) && !HasMeeting(s.meetings, meetingId)
    ensures var l1 := Step(ListState(None, [s]), StandupRowTapped(s));
            var l2 := Step(l1, DetailScreenAction(StandupDetail.StartMeetingTapped));
            var l3 := Step(l2, DetailScreenAction(StandupDetail.RecorderFinished(transcript, meetingId, now)));
            |l3.standups| == 1 && l3.standups[0].meetings == [Meeting(meetingId, now, transcript)] + s.meetings
  {
    SetByIdPresent([s], s);
    assert HasStandup([s], s.id);
  }
}
